=== FILE: README.md ===
# Fractal flame renderer: accumulation and indexing core

This project models the bookkeeping core of `render.js`, the browser fractal-flame
renderer. It has five parts:

- colour sampling from a colormap (`getColorAt`);
- the chaos game that accumulates hit counts and colour sums (`generatePointsFor`, with
  `getRandomVariation`, `pointIsInBounds` and `addPointToArray`);
- the scan for the largest hit count (`getMaxFreq`);
- the pixel loop of `render`;
- the buffer reset `renderingController.clearBuffers`.

The two grids are an `array<int>` of hit counts (the `Int32Array`) and an `array<real>`
of colour sums (the `Float32Array`). The colour sums sit three per cell at
`3 * cell + 0..2`, and a cell is `row * width + column`. Each loop of the source is a
method with loop invariants. Each method is proved against a specification function
on values:

- `Deposit` for the grids;
- `Samples` for what a call records;
- `MaxFreqOf` for the scan;
- `PixelByte` for the output bytes.

The lemmas state what those functions guarantee.

The affine map and the variation of each transform are opaque point-to-point
functions. `Math.random` is a supplied stream of values in [0,1). It is consumed in
the source's order:

- one value for the colour scalar `c`, once per call;
- two values per orbit for the seed;
- one value per warm-up step;
- one value per plotted step.

The tone curve `Math.log(freq) / Math.log(maxFreq) * 255` is a supplied function of
the pixel's count and the largest count.

Two behaviours of the code that a reader might not expect:

- **Zero warm-up.** The options are resolved with `||`, so a configured
  `iterationsToSkip` of 0 is replaced by the default 20. The model follows the code
  here (`Settings.ZeroSkipRunsTwentyWarmUps`).
- **Stale scratch colour.** `addPointToArray` adds its scratch vector `color`, not
  the colour `getColorAt` returns. At an integral colormap position `getColorAt` does
  not write that vector, so the sample adds whatever the vector last held (Findings,
  first row). The engine in `ChaosGame` records the colour `getColorAt` returns. The
  behaviour as written is modelled separately in `ScratchColour`, which runs the same
  engine and replaces each sample's colour with the scratch vector. It is proved to
  hit the same cells with the same counts. With a one-entry colormap it leaves every
  colour sum unchanged.

## Model

| member | source | states |
|---|---|---|
| Colormap.GetColorAt | render.js:121-136 | for an index in [0,1] the floor of the position `cindex*(n-1)` is an entry of the colormap, and the result lies channel by channel between that entry and its right neighbour; for a colormap with channels in [0,1] the result has channels in [0,1] |
| Colormap.ColorAtEntry | render.js:121-128 | when the position is an integer k, k is an entry index and the result is `colormap[k]` unchanged |
| Colormap.ColorAtEnds | render.js:121-128 | index 0 gives the first entry, index 1 the last |
| Colormap.ColorAtSingleEntry | render.js:121-128 | a one-entry colormap yields its single entry for every index in [0,1] |
| Colormap.ColorAtInterpolates | render.js:130-135 | at a non-integral position the ceiling is the floor plus one, both are entries, the bias is the fractional part and lies strictly between 0 and 1, and the result is the lerp of the two neighbours |
| Colormap.ColorAtMidpoint | render.js:130-135 | for a two-entry colormap, index 0.5 gives the channel-wise midpoint |
| Colormap.Ceil | render.js:130 | `Math.ceil`: the result is the least integer not below its argument |
| Colormap.LerpBetween | render.js:135 | a lerp with weight in [0,1] stays, channel by channel, between its two ends |
| Colormap.ScratchAfterGetColorAt | render.js:166-176 | as written: the colour `addPointToArray` reads back equals the colour `getColorAt` returns exactly when the position is fractional or the scratch vector already holds the entry at that position |
| Colormap.SingleEntryAccumulatesBlack | render.js:166-176 | as written: with a one-entry colormap, a black scratch vector stays black for every index; for a non-black entry this differs from the colour `getColorAt` returns |
| Settings.OrElse | render.js:148-152 | JavaScript's logical-or fallback: a present non-zero value is kept, and a missing value or 0 both give the fallback |
| Settings.Resolve | render.js:148-152 | every resolved count and dimension is positive |
| Settings.ZeroOptionsFallBack | render.js:148-152 | options all 0 resolve like options left out, to 10000 points, 20 skipped, 200 plotted, 500 by 500 |
| Settings.ZeroSkipRunsTwentyWarmUps | render.js:149 | a configured `iterationsToSkip` of 0 still runs 20 warm-up steps |
| Pixels.InBounds | render.js:160-164 | `pointIsInBounds`, by definition: both coordinates in [-1,1], ends included |
| Pixels.PixelIndex | render.js:167-171 | as written: the index `y_array * WIDTH + x_array`; whenever the column is inside the row, the index decodes back into that row (division by W) and column (remainder) |
| Pixels.ScaledInRange | render.js:169-170 | a coordinate in [-1,1) maps to a cell index in [0,n), and -1 maps to 0 |
| Pixels.ScaledAtOne | render.js:169-170 | the coordinate 1 maps to n, one past the last index |
| Pixels.PixelIndexInGrid | render.js:167-171 | for x and y in [-1,1), the column is in [0,W), the row is in [0,H), and `y*W+x` is a cell of the grid |
| Pixels.RightEdgeWrapsToNextRow | render.js:160-171 | as written: (1,-1) passes the bounds test, its column is W, and its hit lands on the first cell of the second row |
| Pixels.TopEdgeLeavesGrid | render.js:160-171 | as written: every point with y = 1 passes the bounds test but indexes at or past `W*H` |
| Pixels.Column | render.js:169 | the column of an in-bounds point is below W; it equals the source's column when x < 1, and is W-1 when x = 1 |
| Pixels.Row | render.js:170 | the row of an in-bounds point is below H; it equals the source's row when y < 1, and is H-1 when y = 1 |
| Pixels.Cell | render.js:167-171 | every in-bounds point lands on a cell of the grid; that cell is the source's `y*W+x` whenever neither coordinate is 1 |
| Pixels.EdgesStayInGrid | render.js:167-171 | corrected: (1,-1) lands on the last cell of the first row and (1,1) on the last cell of the grid |
| Accumulation.Record | render.js:171-176 | recording one sample keeps three colour sums per count and the size of the grids; its effect on each slot is stated by `RecordEffect` |
| Accumulation.Deposit | render.js:183-205 | recording the samples in order keeps the grids' shape and size; its effect is stated by `DepositCounts`, `DepositSums` and `DepositTotal` |
| Accumulation.Zeros | render.js:153-154 | fresh grids have `W*H` counts and `3*W*H` sums |
| Accumulation.RecordEffect | render.js:171-176 | recording a sample raises exactly one count, that of its cell, by 1, adds its colour to exactly the three sums `3*cell+0..2`, and changes nothing else |
| Accumulation.DepositAppend | render.js:183-205 | recording two runs of samples one after the other equals recording their concatenation |
| Accumulation.DepositCounts | render.js:171 | after a deposit each count is its old value plus the number of samples on its cell |
| Accumulation.DepositSums | render.js:174-176 | after a deposit each colour sum is its old value plus that channel of every sample on its cell |
| Accumulation.DepositSumAt | render.js:174-176 | the same fact for one colour-sum slot |
| Accumulation.RepeatedSample | render.js:171-176 | n copies of one sample hit its cell n times, add n times its colour there, and touch no other cell |
| Accumulation.DepositRepeated | render.js:171-176 | n copies of one sample deposited on cleared grids leave only its cell non-zero, with count n and sums n times its colour |
| Accumulation.RepeatedCounts | render.js:171 | the counts half of `DepositRepeated` |
| Accumulation.RepeatedSums | render.js:174-176 | the colour-sums half of `DepositRepeated` |
| Accumulation.DepositMonotone | render.js:171 | a deposit never lowers any count |
| Accumulation.TotalIncrement | render.js:171 | raising one count by 1 raises the total by 1 |
| Accumulation.DepositTotal | render.js:171 | each recorded sample adds exactly 1 to the total hit count |
| ChaosGame.Pick | render.js:156-158 | `getRandomVariation` returns one of the fractal's transforms |
| ChaosGame.Start | render.js:179-181 | before the first orbit, c is one random value in [0,1) and exactly one value of the stream has been used |
| ChaosGame.Seed | render.js:184 | a new orbit starts from a point in [-1,1) on both axes, so it is in bounds and on neither the right nor the top edge; c carries over and two random values are used |
| ChaosGame.PickIndex | render.js:156-158 | for r in [0,1) and len at least 1, `floor(r*len)` is in [0,len) |
| ChaosGame.Blend | render.js:196 | from c and a weight in [0,1], the new c is in [0,1] and lies between the two; a c below 1 stays below 1 |
| ChaosGame.WarmUp | render.js:186-190 | warm-up steps leave the colour scalar alone and use one random value each |
| ChaosGame.PlotStep | render.js:192-203 | corrected: a plotted step keeps c in [0,1], uses one random value, and records exactly one sample when the final transform's point passes the bounds test (none otherwise); the sample lies in the grid (`Pixels.Cell`) and has the colour `getColorAt` returns at the new c |
| ChaosGame.Plot | render.js:192-204 | corrected: n plotted steps record at most n samples, all inside the grid, and keep c in [0,1] |
| ChaosGame.Orbit | render.js:184-204 | corrected: one orbit records at most `PLOTTED_ITERS` samples, all inside the grid |
| ChaosGame.Orbits | render.js:181-205 | corrected: n orbits keep c in [0,1] and record at most `n*PLOTTED_ITERS` samples, all inside the grid (by definition, through `Start` and `Seed`, c is drawn once before the first orbit and carried from orbit to orbit) |
| ChaosGame.Samples | render.js:183-205 | corrected: one call records at most `POINTS*PLOTTED_ITERS` samples, all inside the grid |
| ChaosGame.CallBounds | render.js:183-205 | corrected: across one call every count is non-decreasing, and the total count grows by at least 0 and at most `POINTS*PLOTTED_ITERS` |
| ChaosGame.TwoCallsMonotone | render.js:153-154 | corrected: two calls on the same supplied grids never lower a count below its value after the first call |
| ChaosGame.WarmUpFixed | render.js:186-190 | if every transform fixes every point, warm-up leaves the point where it is |
| ChaosGame.PlotFixed | render.js:192-204 | corrected: with such transforms and a one-entry colormap, n plotted steps from an in-bounds point record n samples on its cell, all with the single colour |
| ChaosGame.FixedFlameSamples | render.js:181-205 | corrected: for a one-orbit call on such a fractal, the seed is in bounds and every recorded sample is on the seed's cell with the single colour |
| ChaosGame.FixedFlameHitsSeedCell | render.js:147-208 | corrected: on cleared grids that call leaves the seed's cell with count `PLOTTED_ITERS` and sums `PLOTTED_ITERS` times the colour; every other count and sum stays 0 |
| ChaosGame.AddPointToArray | render.js:167-177 | the grids after the call are the grids before it with the sample (cell of the point, colour at c) recorded |
| ChaosGame.WarmUpLoop | render.js:186-190 | the warm-up loop ends in the state `WarmUp` gives; it may modify nothing, so it never touches either grid |
| ChaosGame.PlotOnce | render.js:193-203 | corrected: one plotted iteration leaves the walker `PlotStep` gives and deposits that step's samples |
| ChaosGame.PlotLoop | render.js:192-204 | corrected: the plotted loop leaves the walker `Plot` gives and deposits exactly its samples, in order |
| ChaosGame.OrbitOnce | render.js:184-204 | corrected: one orbit's seeding, warm-up and plotted loops deposit exactly `Orbit`'s samples |
| ChaosGame.OrbitLoop | render.js:181-205 | corrected: the orbit loop deposits exactly `Samples` on top of what the grids held |
| ChaosGame.GeneratePointsFor | render.js:147-208 | corrected: the call returns the supplied grids (or fresh ones), now holding their previous contents (zeros for fresh grids) with every sample of `Samples` recorded |
| Rendering.MaxFreqOf | render.js:210-218 | the value before the log is at least 0 and at least every count; it is 0 or one of the counts, and it is positive exactly when some count is |
| Rendering.MaxFreq | render.js:210-218 | the scan loop returns `MaxFreqOf` of the count array |
| Rendering.ClampByte | render.js:226-231 | a store into the clamped byte array gives 0..255: below 0 gives 0, above 255 gives 255, anything else is within 0.5 of the value, with ties to even |
| Rendering.ChannelByte | render.js:238-242 | a colour byte is in 0..255; with no hits it is 0 for a zero sum (NaN) and 255 for a positive one; otherwise it is within 0.5 of `sum/freq*255` when that is in [0,255] |
| Rendering.PixelByte | render.js:233-243 | every output byte is in 0..255 |
| Rendering.PixelSlot | render.js:233-237 | (x,y) maps to cell `y*W+x` inside the grid, and its byte slots `4*cell+k` are inside the buffer; x and y, and the byte's pixel and channel, are recovered from the index, so distinct pixels never share a slot |
| Rendering.PixelByteAt | render.js:235-242 | byte k of pixel `cell` reads colour slot `3*cell+k` for k < 3, and the tone of that pixel's count for k = 3 |
| Rendering.SetPixel | render.js:226-231 | exactly the four slots `4*(y*W+x)+0..3` are written, with r, g, b and a |
| Rendering.ShadePixel | render.js:234-243 | one iteration writes the pixel's four slots with their `PixelByte` values and leaves every other byte as it was |
| Rendering.ShadeRow | render.js:234-243 | one row writes exactly the slots of its W pixels |
| Rendering.ShadeRows | render.js:233-244 | after the nested loop every byte of the buffer holds its `PixelByte` value, so every pixel was written; each row's slots stay inside the buffer and the next row starts where the last one ended |
| Rendering.Render | render.js:221-246 | every byte of `data` is the `PixelByte` of the counts, the sums and their largest count |
| Rendering.ClearBuffers | render.js:280-283 | every count and every colour sum is 0 afterwards |
| ScratchColour.ScratchStep | render.js:166-176 | as written: a plotted step moves the walker as the engine's step does and hits the same cell; with a one-entry colormap the scratch vector is never written and the sample carries what it held |
| ScratchColour.ScratchPlot | render.js:192-204 | as written: n plotted steps leave the engine's walker and hit the engine's cells in order; with a one-entry colormap every sample carries the incoming scratch colour, which is unchanged |
| ScratchColour.ScratchOrbit | render.js:184-204 | as written: one orbit leaves the engine's walker and hits the engine's cells in order; with a one-entry colormap the scratch colour is unchanged |
| ScratchColour.ScratchOrbits | render.js:181-205 | as written: the scratch vector starts black once per call and is never reset; the orbits leave the engine's walker and hit its cells in order, and with a one-entry colormap every sample is black |
| ScratchColour.ScratchSamples | render.js:147-208 | as written for the colour, corrected for the cells: one call's samples hit the cells of `Samples`, in order, so they fit the grid; with a one-entry colormap all of them are black |
| ScratchColour.SameCellsSameCounts | render.js:171 | samples on the same cells, whatever their colours, leave the same counts |
| ScratchColour.ScratchSameCounts | render.js:171-176 | as written: a call's hit counts are exactly those of the engine |
| ScratchColour.BlackSumsUnchanged | render.js:174-176 | black samples leave every colour sum unchanged |
| ScratchColour.SingleColourSumsUnchanged | render.js:166-176 | as written: a call with a one-entry colormap leaves every colour sum where it was, whatever the entry, while the counts grow as the engine's do |
| ScratchColour.FixedFlameAsWritten | render.js:147-208 | as written: on the fixed-point fractal of `FixedFlameHitsSeedCell`, the seed's cell counts `PLOTTED_ITERS` hits and no other cell is hit, but every colour sum stays 0 |

## Left out

- The variation formulas (render.js:10-91) and the affine map `vec2.transformMat2d` are opaque point maps. Their formulas, including the quirks of `swirl` and `julia`, are not modelled, and neither is the extra random value `julia` draws.
- The colour scalar `c`, the colormap position `cindex*(n-1)`, the lerp bias and the quotients of `render` are JavaScript doubles, modelled as exact reals. This matters at the integrality test of `getColorAt` (render.js:126), which decides whether the scratch vector is written. In doubles, repeated picks of a transform with weight 1 round c to exactly 1.0 after about 54 steps; in the model `ChaosGame.Blend` keeps c strictly below 1 once it is below 1, so that case of the first Findings row arises only through rounding.
- Points are finite reals. JavaScript's NaN and Infinity comparisons are not modelled, so a point with NaN coordinates is not modelled either.
- `Float32Array` rounding of the colour sums and `Int32Array` overflow of the counts are not modelled. Sums are exact reals and counts are unbounded integers.
- `Math.log` in `getMaxFreq` and the alpha formula of `render` are not modelled. The alpha value is a supplied tone function; `MaxFreq` returns the count before its logarithm.
- `Math.random` is a supplied stream of values in [0,1). `randomVariation`, `randomMat2d`, `randomColormapName` and `randomBackground` are not modelled.
- The timers and canvas work of `initRendering` are I/O and are not modelled: `setInterval`, `requestAnimationFrame`, `putImageData`, `createImageData`. Neither are `canvasResolutionChanged` and `updateIntervalChanged`.
- The GUI folders and callbacks are not modelled.
- Asynchronous colormap loading is network and DOM work and is not modelled. A colormap is a given non-empty sequence of colours.
- The page's own options object (render.js:138-145) is one caller's choice of options and is not modelled as a constant; `Settings.Resolve` covers every options object.
- Options are non-negative integers or missing. Negative, fractional or non-numeric option values are not modelled.
- ChaosGame.GeneratePointsFor: requires supplied grids of exactly `W*H` counts and `3*W*H` sums. With shorter arrays the source would silently drop out-of-range writes; that case is not modelled.
- ChaosGame.GeneratePointsFor: requires at least one transform. With none, the source reads an undefined transform and throws.
- ChaosGame.PlotStep: records the corrected cell `Pixels.Cell` and the colour `getColorAt` returns. As written, `addPointToArray` indexes with `Pixels.PixelIndex`, so an x = 1 point lands on the next row (`Pixels.RightEdgeWrapsToNextRow`) and a y = 1 point indexes past the grid, where the typed array drops the write (`Pixels.TopEdgeLeavesGrid`); and it adds the scratch vector (`ScratchColour.ScratchStep`).
- ChaosGame.Plot: built on `PlotStep`, so its samples lie in the corrected cells `Pixels.Cell` and carry the colour `getColorAt` returns. As written, render.js:169-171 sends an x = 1 hit to the next row and a y = 1 hit to an index at or past W*H, where the typed array drops the write, and render.js:172-176 adds the scratch vector instead of that colour.
- ChaosGame.Orbit: built on `PlotStep`, so its samples lie in the corrected cells `Pixels.Cell` and carry the colour `getColorAt` returns. As written, render.js:169-171 sends an x = 1 hit to the next row and a y = 1 hit to an index at or past W*H, where the typed array drops the write, and render.js:172-176 adds the scratch vector instead of that colour.
- ChaosGame.Orbits: built on `PlotStep`, so its samples lie in the corrected cells `Pixels.Cell` and carry the colour `getColorAt` returns. As written, render.js:169-171 sends an x = 1 hit to the next row and a y = 1 hit to an index at or past W*H, where the typed array drops the write, and render.js:172-176 adds the scratch vector instead of that colour.
- ChaosGame.Samples: built on `PlotStep`, so its samples lie in the corrected cells `Pixels.Cell` and carry the colour `getColorAt` returns. As written, render.js:169-171 sends an x = 1 hit to the next row and a y = 1 hit to an index at or past W*H, where the typed array drops the write, and render.js:172-176 adds the scratch vector instead of that colour.
- ChaosGame.GeneratePointsFor: built on `PlotStep`, so its samples lie in the corrected cells `Pixels.Cell` and carry the colour `getColorAt` returns. As written, render.js:169-171 sends an x = 1 hit to the next row and a y = 1 hit to an index at or past W*H, where the typed array drops the write, and render.js:172-176 adds the scratch vector instead of that colour.
- ScratchColour.ScratchSamples: takes its cells from `ChaosGame.Samples`, so they are the corrected cells `Pixels.Cell`; only the colour is as written. As written, render.js:169-171 sends an x = 1 hit to the next row and a y = 1 hit to an index at or past W*H, where the typed array drops the write.
- ChaosGame.CallBounds: its bounds and deposits are proved for the corrected engine only. The engine as written deposits at `Pixels.PixelIndex` with the scratch colour (`ScratchColour.ScratchStep`) and loses the y = 1 writes; no bound about it is proved here.
- ChaosGame.TwoCallsMonotone: its bounds and deposits are proved for the corrected engine only. The engine as written deposits at `Pixels.PixelIndex` with the scratch colour (`ScratchColour.ScratchStep`) and loses the y = 1 writes; no bound about it is proved here.
- ChaosGame.PlotOnce: its bounds and deposits are proved for the corrected engine only. The engine as written deposits at `Pixels.PixelIndex` with the scratch colour (`ScratchColour.ScratchStep`) and loses the y = 1 writes; no bound about it is proved here.
- ChaosGame.PlotLoop: its bounds and deposits are proved for the corrected engine only. The engine as written deposits at `Pixels.PixelIndex` with the scratch colour (`ScratchColour.ScratchStep`) and loses the y = 1 writes; no bound about it is proved here.
- ChaosGame.OrbitOnce: its bounds and deposits are proved for the corrected engine only. The engine as written deposits at `Pixels.PixelIndex` with the scratch colour (`ScratchColour.ScratchStep`) and loses the y = 1 writes; no bound about it is proved here.
- ChaosGame.OrbitLoop: its bounds and deposits are proved for the corrected engine only. The engine as written deposits at `Pixels.PixelIndex` with the scratch colour (`ScratchColour.ScratchStep`) and loses the y = 1 writes; no bound about it is proved here.
- ChaosGame.AddPointToArray: records the colour `getColorAt` returns rather than the stale scratch vector (see Findings). The stale colour is modelled on values in `ScratchColour`, not on the arrays.
- ChaosGame.PlotFixed: states the corrected colour. As written, every sample of a one-entry colormap is black (`ScratchColour.ScratchPlot`).
- ChaosGame.FixedFlameSamples: states the corrected colour. As written, every sample is black (`ScratchColour.ScratchSamples`).
- ChaosGame.FixedFlameHitsSeedCell: states the corrected sums. As written, every colour sum stays 0 (`ScratchColour.FixedFlameAsWritten`).
- ScratchColour.ScratchStep: uses the corrected cell `Pixels.Cell`, so it isolates the colour finding from the edge finding.
- ChaosGame.AddPointToArray: uses the corrected cell `Pixels.Cell`, so points on the edges x = 1 and y = 1 stay in the grid (see Findings).
- Rendering.Render: requires the output buffer to be a different array from the count grid and to hold exactly `4*W*H` bytes, as `createImageData` provides.

## Findings

| source | as written | input that shows it | evidently intended | confidence | as-written member | corrected member |
|---|---|---|---|---|---|---|
| render.js:126-128, 166-176 | `getColorAt` returns the entry without writing `out` when the position is integral. `addPointToArray` ignores the return value and adds its scratch vector `color`, which stays at its previous value (black at first). | colormap `[white]` (any `c`); or a three-entry colormap with c exactly 0.5, reached from an initial c of 0 by a transform of weight 1 (c exactly 1 arises only through double rounding) | the sampled colour `getColorAt` returns is accumulated, so a one-colour fractal accumulates that colour | high, not executed | ScratchColour.FixedFlameAsWritten | ChaosGame.FixedFlameHitsSeedCell |
| render.js:160-171 | `pointIsInBounds` accepts x = 1 and y = 1. `Math.floor((1 + 1) / 2 * WIDTH)` is `WIDTH`, so the column spills into the next row and the row spills past the grid. | the display point (1, -1) with H ≥ 2 is counted on cell W, the first cell of row 1; any point with y = 1 indexes at `W*H` or beyond | points on the right and top edges land on the last column and last row | medium, not executed | Pixels.RightEdgeWrapsToNextRow | Pixels.EdgesStayInGrid |

=== FILE: accumulation.dfy ===
/**
 * The two accumulation grids as values: the `Int32Array` of hit counts and the
 * `Float32Array` of colour sums, three sums per cell at `3 * cell + 0..2`. A
 * sample is what one plotted step hands to `addPointToArray`: a cell and a colour.
 */
module Accumulation {
  import opened Colormap

  datatype Sample = Sample(cell: nat, color: Color)

  datatype Grids = Grids(counts: seq<int>, sums: seq<real>)

  /** Three colour sums per hit-count cell. */
  predicate Shaped(g: Grids) {
    |g.sums| == 3 * |g.counts|
  }

  /** Every sample names a cell of a grid with `n` cells. */
  predicate Fits(samples: seq<Sample>, n: nat) {
    forall i :: 0 <= i < |samples| ==> samples[i].cell < n
  }

  /** Grids of `n` cells, every count and every sum 0. */
  function Zeros(n: nat): (g: Grids)
    ensures Shaped(g) && |g.counts| == n
  {
    Grids(seq(n, _ => 0), seq(3 * n, _ => 0.0))
  }

  /** The amount sample colour `c` adds to colour slot `k` (0, 1 or 2) of its cell. */
  function Channel(c: Color, k: nat): real {
    if k == 0 then c.r else if k == 1 then c.g else c.b
  }

  /** `addPointToArray` on values: the sample's cell gains one hit and the sample's colour. */
  function Record(g: Grids, s: Sample): (r: Grids)
    requires Shaped(g) && s.cell < |g.counts|
    ensures Shaped(r) && |r.counts| == |g.counts|
  {
    var k := 3 * s.cell;
    Grids(
      g.counts[s.cell := g.counts[s.cell] + 1],
      g.sums[k := g.sums[k] + s.color.r][k + 1 := g.sums[k + 1] + s.color.g][k + 2 := g.sums[k + 2] + s.color.b])
  }

  /**
   * Recording a sample raises exactly one count, that of the sample's cell, by 1,
   * adds the sample's colour to exactly the three sums of that cell, and changes
   * nothing else.
   */
  lemma RecordEffect(g: Grids, s: Sample)
    requires Shaped(g) && s.cell < |g.counts|
    ensures forall i :: 0 <= i < |g.counts| ==>
      Record(g, s).counts[i] == if i == s.cell then g.counts[i] + 1 else g.counts[i]
    ensures forall j :: 0 <= j < |g.sums| ==>
      Record(g, s).sums[j] == if j / 3 == s.cell then g.sums[j] + Channel(s.color, j % 3) else g.sums[j]
  {
    forall j | 0 <= j < |g.sums|
      ensures Record(g, s).sums[j] == if j / 3 == s.cell then g.sums[j] + Channel(s.color, j % 3) else g.sums[j]
    {
      if j / 3 == s.cell {
        assert j == 3 * s.cell + j % 3;
      }
    }
  }

  /** The grids after recording every sample, in order. */
  function Deposit(g: Grids, samples: seq<Sample>): (r: Grids)
    requires Shaped(g) && Fits(samples, |g.counts|)
    ensures Shaped(r) && |r.counts| == |g.counts|
    decreases |samples|
  {
    if samples == [] then g
    else
      var last := |samples| - 1;
      Record(Deposit(g, samples[..last]), samples[last])
  }

  /** Depositing a concatenation deposits the first part, then the second. */
  lemma {:induction false} DepositAppend(g: Grids, s: seq<Sample>, t: seq<Sample>)
    requires Shaped(g) && Fits(s, |g.counts|) && Fits(t, |g.counts|)
    ensures Fits(s + t, |g.counts|)
    ensures Deposit(g, s + t) == Deposit(Deposit(g, s), t)
    decreases |t|
  {
    assert Fits(s + t, |g.counts|) by {
      forall i | 0 <= i < |s + t| ensures (s + t)[i].cell < |g.counts| {
        if i >= |s| { assert (s + t)[i] == t[i - |s|]; }
      }
    }
    if t == [] {
      assert s + t == s;
    } else {
      var last := |t| - 1;
      assert (s + t)[..|s + t| - 1] == s + t[..last];
      assert (s + t)[|s + t| - 1] == t[last];
      DepositAppend(g, s, t[..last]);
    }
  }

  /** How many of the samples fall on `cell`. */
  function Hits(samples: seq<Sample>, cell: nat): nat
    decreases |samples|
  {
    if samples == [] then 0
    else Hits(samples[..|samples| - 1], cell) + (if samples[|samples| - 1].cell == cell then 1 else 0)
  }

  /** What the samples falling on `cell` add to its colour slot `k`. */
  function Added(samples: seq<Sample>, cell: nat, k: nat): real
    decreases |samples|
  {
    if samples == [] then 0.0
    else
      var last := samples[|samples| - 1];
      Added(samples[..|samples| - 1], cell, k) + (if last.cell == cell then Channel(last.color, k) else 0.0)
  }

  /** After a deposit, each count is its old value plus the samples that fall on its cell. */
  lemma {:induction false} DepositCounts(g: Grids, samples: seq<Sample>)
    requires Shaped(g) && Fits(samples, |g.counts|)
    ensures forall i :: 0 <= i < |g.counts| ==> Deposit(g, samples).counts[i] == g.counts[i] + Hits(samples, i)
    decreases |samples|
  {
    if samples != [] {
      var last := |samples| - 1;
      DepositCounts(g, samples[..last]);
      RecordEffect(Deposit(g, samples[..last]), samples[last]);
    }
  }

  /**
   * After a deposit, colour slot `k` of each cell is its old value plus the
   * channel `k` of every sample that falls on that cell.
   */
  lemma DepositSums(g: Grids, samples: seq<Sample>)
    requires Shaped(g) && Fits(samples, |g.counts|)
    ensures forall j :: 0 <= j < |g.sums| ==> Deposit(g, samples).sums[j] == g.sums[j] + Added(samples, j / 3, j % 3)
  {
    forall j | 0 <= j < |g.sums|
      ensures Deposit(g, samples).sums[j] == g.sums[j] + Added(samples, j / 3, j % 3)
    {
      DepositSumAt(g, samples, j);
    }
  }

  lemma {:induction false} DepositSumAt(g: Grids, samples: seq<Sample>, j: nat)
    requires Shaped(g) && Fits(samples, |g.counts|) && j < |g.sums|
    ensures Deposit(g, samples).sums[j] == g.sums[j] + Added(samples, j / 3, j % 3)
    decreases |samples|
  {
    if samples != [] {
      var last := |samples| - 1;
      DepositSumAt(g, samples[..last], j);
      RecordEffect(Deposit(g, samples[..last]), samples[last]);
    }
  }

  lemma RepeatedFits(cells: nat, s: Sample, n: nat)
    requires s.cell < cells
    ensures Fits(seq(n, _ => s), cells)
  {
  }

  /** `n` copies of one sample hit its cell `n` times and add `n` times its colour there. */
  lemma {:induction false} RepeatedSample(s: Sample, n: nat, cell: nat, k: nat)
    ensures Hits(seq(n, _ => s), cell) == if cell == s.cell then n else 0
    ensures Added(seq(n, _ => s), cell, k) == if cell == s.cell then n as real * Channel(s.color, k) else 0.0
  {
    if n > 0 {
      assert seq(n, _ => s)[..n - 1] == seq(n - 1, _ => s);
      RepeatedSample(s, n - 1, cell, k);
    }
  }

  /** Counts that are 0 everywhere except on `cell`, which counts `n`. */
  predicate CountsOnly(counts: seq<int>, cell: nat, n: nat) {
    forall i :: 0 <= i < |counts| ==> counts[i] == if i == cell then n else 0
  }

  /** Colour sums that are 0 everywhere except the three of `cell`, which hold `n` times `color`. */
  predicate SumsOnly(sums: seq<real>, cell: nat, n: nat, color: Color) {
    forall j :: 0 <= j < |sums| ==> sums[j] == if j / 3 == cell then n as real * Channel(color, j % 3) else 0.0
  }

  /** Grids on which only `cell` was ever hit, `n` times, always with `color`. */
  predicate OnlyCell(g: Grids, cell: nat, n: nat, color: Color) {
    CountsOnly(g.counts, cell, n) && SumsOnly(g.sums, cell, n, color)
  }

  /** `n` copies of one sample deposited on cleared grids hit its cell alone. */
  lemma DepositRepeated(cells: nat, s: Sample, n: nat)
    requires s.cell < cells
    ensures Fits(seq(n, _ => s), cells)
    ensures OnlyCell(Deposit(Zeros(cells), seq(n, _ => s)), s.cell, n, s.color)
  {
    RepeatedCounts(cells, s, n);
    RepeatedSums(cells, s, n);
  }

  lemma RepeatedCounts(cells: nat, s: Sample, n: nat)
    requires s.cell < cells
    ensures Fits(seq(n, _ => s), cells)
    ensures CountsOnly(Deposit(Zeros(cells), seq(n, _ => s)).counts, s.cell, n)
  {
    var samples := seq(n, _ => s);
    var after := Deposit(Zeros(cells), samples);
    DepositCounts(Zeros(cells), samples);
    forall i | 0 <= i < |after.counts|
      ensures after.counts[i] == if i == s.cell then n else 0
    {
      RepeatedSample(s, n, i, 0);
    }
  }

  lemma RepeatedSums(cells: nat, s: Sample, n: nat)
    requires s.cell < cells
    ensures Fits(seq(n, _ => s), cells)
    ensures SumsOnly(Deposit(Zeros(cells), seq(n, _ => s)).sums, s.cell, n, s.color)
  {
    var after := Deposit(Zeros(cells), seq(n, _ => s));
    forall j | 0 <= j < |after.sums|
      ensures after.sums[j] == if j / 3 == s.cell then n as real * Channel(s.color, j % 3) else 0.0
    {
      RepeatedSumAt(cells, s, n, j);
    }
  }

  lemma RepeatedSumAt(cells: nat, s: Sample, n: nat, j: nat)
    requires s.cell < cells && j < 3 * cells
    ensures Fits(seq(n, _ => s), cells)
    ensures Deposit(Zeros(cells), seq(n, _ => s)).sums[j] ==
      if j / 3 == s.cell then n as real * Channel(s.color, j % 3) else 0.0
  {
    var samples := seq(n, _ => s);
    var cell, k := j / 3, j % 3;
    RepeatedFits(cells, s, n);
    DepositSumAt(Zeros(cells), samples, j);
    RepeatedSample(s, n, cell, k);
    assert Zeros(cells).sums[j] == 0.0;
  }

  /** Depositing never lowers a hit count. */
  lemma DepositMonotone(g: Grids, samples: seq<Sample>)
    requires Shaped(g) && Fits(samples, |g.counts|)
    ensures forall i :: 0 <= i < |g.counts| ==> g.counts[i] <= Deposit(g, samples).counts[i]
  {
    DepositCounts(g, samples);
  }

  /** The sum of all counts. */
  function Total(counts: seq<int>): int
    decreases |counts|
  {
    if counts == [] then 0 else Total(counts[..|counts| - 1]) + counts[|counts| - 1]
  }

  /** Raising one count by 1 raises the total by 1. */
  lemma {:induction false} TotalIncrement(counts: seq<int>, k: nat)
    requires k < |counts|
    ensures Total(counts[k := counts[k] + 1]) == Total(counts) + 1
    decreases |counts|
  {
    var last := |counts| - 1;
    var bumped := counts[k := counts[k] + 1];
    if k < last {
      assert bumped[..last] == counts[..last][k := counts[k] + 1];
      TotalIncrement(counts[..last], k);
    } else {
      assert bumped[..last] == counts[..last];
    }
  }

  /** Each deposited sample adds exactly 1 to the total hit count. */
  lemma {:induction false} DepositTotal(g: Grids, samples: seq<Sample>)
    requires Shaped(g) && Fits(samples, |g.counts|)
    ensures Total(Deposit(g, samples).counts) == Total(g.counts) + |samples|
    decreases |samples|
  {
    if samples != [] {
      var last := |samples| - 1;
      var before := Deposit(g, samples[..last]);
      DepositTotal(g, samples[..last]);
      var s := samples[last];
      assert Record(before, s).counts == before.counts[s.cell := before.counts[s.cell] + 1];
      TotalIncrement(before.counts, s.cell);
    }
  }
}

=== FILE: chaos.dfy ===
/**
 * The chaos game of `generatePointsFor`. The affine map (`vec2.transformMat2d`) and
 * the variation of each transform are opaque point maps; `Math.random` is a
 * supplied stream of values in [0,1), read in the order the source draws them:
 * the colour scalar once per call, then for every orbit two seed coordinates, one
 * value per warm-up step and one value per plotted step.
 *
 * The functions below are the specification, step by step as the loops run;
 * `GeneratePointsFor` is the loop itself, proved to leave the grids equal to the
 * deposit of the samples the specification produces.
 */
module ChaosGame {
  import opened Colormap
  import opened Settings
  import opened Pixels
  import opened Accumulation

  /** `Math.random()`, value by value. */
  type Stream = nat -> real

  ghost predicate UnitStream(rand: Stream) {
    forall k: nat :: 0.0 <= rand(k) < 1.0
  }

  /** One entry of `fractal.variations`: affine map, variation, colour weight `c`. */
  datatype Transform = Transform(mat: Point -> Point, fn: Point -> Point, c: real)

  datatype Fractal = Fractal(variations: seq<Transform>, final: Transform, colormap: seq<Color>)

  /**
   * What the page keeps true of its fractal: at least one transform, every colour
   * weight in [0,1], a non-empty colormap.
   */
  predicate ValidFractal(f: Fractal) {
    |f.variations| >= 1 && |f.colormap| >= 1 &&
    forall i :: 0 <= i < |f.variations| ==> 0.0 <= f.variations[i].c <= 1.0
  }

  /** `vec2.transformMat2d(p, p, t.mat)` followed by `t.fn(p, p)`. */
  function Apply(t: Transform, p: Point): Point {
    t.fn(t.mat(p))
  }

  /** `Math.floor(r * len)`: the transform index drawn from a random value. */
  function PickIndex(r: real, len: nat): (k: int)
    requires 0.0 <= r < 1.0 && len >= 1
    ensures 0 <= k < len
  {
    assert r * len as real < len as real by {
      assert len as real - r * len as real == (1.0 - r) * len as real;
    }
    (r * len as real).Floor
  }

  /** `getRandomVariation`: the transform picked by the `next`-th random value. */
  function Pick(f: Fractal, rand: Stream, next: nat): (t: Transform)
    requires ValidFractal(f) && UnitStream(rand)
    ensures t in f.variations
  {
    f.variations[PickIndex(rand(next), |f.variations|)]
  }

  /** The state the loops carry: the point `p`, the colour scalar `c`, the next random value. */
  datatype Walker = Walker(p: Point, c: real, next: nat)

  /** The colour update of a plotted step, `c = (c + variation.c) / 2`. */
  function Blend(c: real, weight: real): (c': real)
    requires 0.0 <= c <= 1.0 && 0.0 <= weight <= 1.0
    ensures 0.0 <= c' <= 1.0
    ensures Between(c, weight, c')
    ensures c < 1.0 ==> c' < 1.0
  {
    (c + weight) / 2.0
  }

  /** A warm-up step: moves the point, leaves the colour scalar alone. */
  function WarmStep(f: Fractal, rand: Stream, w: Walker): Walker
    requires ValidFractal(f) && UnitStream(rand)
  {
    Walker(Apply(Pick(f, rand, w.next), w.p), w.c, w.next + 1)
  }

  /** `n` warm-up steps: the colour scalar is untouched and `n` random values are used. */
  function WarmUp(f: Fractal, rand: Stream, w: Walker, n: nat): (r: Walker)
    requires ValidFractal(f) && UnitStream(rand)
    ensures r.c == w.c && r.next == w.next + n
  {
    if n == 0 then w else WarmStep(f, rand, WarmUp(f, rand, w, n - 1))
  }

  /** A walker together with the samples recorded so far. */
  datatype Run = Run(w: Walker, samples: seq<Sample>)

  ghost predicate PlotReady(f: Fractal, rand: Stream, width: nat, height: nat, w: Walker) {
    ValidFractal(f) && UnitStream(rand) && width > 0 && height > 0 && 0.0 <= w.c <= 1.0
  }

  /**
   * A plotted step: moves the point, blends the colour scalar, and records one
   * sample exactly when the final transform of the new point passes the bounds
   * test; the sample's colour is the colormap at the new colour scalar.
   */
  function PlotStep(f: Fractal, rand: Stream, width: nat, height: nat, w: Walker): (r: Run)
    requires PlotReady(f, rand, width, height, w)
    ensures 0.0 <= r.w.c <= 1.0 && r.w.next == w.next + 1
    ensures |r.samples| == (if InBounds(Apply(f.final, r.w.p)) then 1 else 0)
    ensures Fits(r.samples, width * height)
    ensures r.samples != [] ==> r.samples[0].color == GetColorAt(r.w.c, f.colormap)
  {
    var t := Pick(f, rand, w.next);
    var p := Apply(t, w.p);
    var c := Blend(w.c, t.c);
    var q := Apply(f.final, p);
    Run(Walker(p, c, w.next + 1),
        if InBounds(q) then [Sample(Cell(q, width, height), GetColorAt(c, f.colormap))] else [])
  }

  /** `n` plotted steps: at most `n` samples, all inside the grid. */
  function Plot(f: Fractal, rand: Stream, width: nat, height: nat, w: Walker, n: nat): (r: Run)
    requires PlotReady(f, rand, width, height, w)
    ensures 0.0 <= r.w.c <= 1.0 && r.w.next == w.next + n
    ensures |r.samples| <= n && Fits(r.samples, width * height)
  {
    if n == 0 then Run(w, [])
    else
      var before := Plot(f, rand, width, height, w, n - 1);
      var step := PlotStep(f, rand, width, height, before.w);
      Run(step.w, before.samples + step.samples)
  }

  /**
   * A new orbit's point, `Math.random() * 2 - 1` twice: it lies in [-1,1) on both
   * axes, so it is in bounds and on neither the right nor the top edge. The colour
   * scalar carries over and two random values are used.
   */
  function Seed(rand: Stream, w: Walker): (r: Walker)
    requires UnitStream(rand)
    ensures -1.0 <= r.p.x < 1.0 && -1.0 <= r.p.y < 1.0
    ensures r.c == w.c && r.next == w.next + 2
  {
    Walker(Point(rand(w.next) * 2.0 - 1.0, rand(w.next + 1) * 2.0 - 1.0), w.c, w.next + 2)
  }

  /** One orbit: seed, warm up, plot. */
  function Orbit(f: Fractal, rand: Stream, config: Config, w: Walker): (r: Run)
    requires PlotReady(f, rand, config.width, config.height, w)
    ensures 0.0 <= r.w.c <= 1.0
    ensures |r.samples| <= config.plotted && Fits(r.samples, config.width * config.height)
  {
    var warm := WarmUp(f, rand, Seed(rand, w), config.skipped);
    Plot(f, rand, config.width, config.height, warm, config.plotted)
  }

  /**
   * The state before the first orbit: `c` is drawn once, for the whole call, so it
   * lies in [0,1) and exactly one random value is used before the first seed.
   */
  function Start(rand: Stream): (w: Walker)
    requires UnitStream(rand)
    ensures 0.0 <= w.c < 1.0 && w.next == 1
  {
    Walker(Point(0.0, 0.0), rand(0), 1)
  }

  /** The first `n` orbits of a call, the colour scalar carried from each orbit to the next. */
  function Orbits(f: Fractal, rand: Stream, config: Config, n: nat): (r: Run)
    requires ValidFractal(f) && UnitStream(rand) && config.width > 0 && config.height > 0
    ensures 0.0 <= r.w.c <= 1.0
    ensures |r.samples| <= n * config.plotted && Fits(r.samples, config.width * config.height)
  {
    if n == 0 then Run(Start(rand), [])
    else
      var before := Orbits(f, rand, config, n - 1);
      var orbit := Orbit(f, rand, config, before.w);
      assert |before.samples + orbit.samples| <= (n - 1) * config.plotted + config.plotted;
      Run(orbit.w, before.samples + orbit.samples)
  }

  /** Every sample one call of `generatePointsFor` records, in order. */
  function Samples(f: Fractal, rand: Stream, config: Config): (samples: seq<Sample>)
    requires ValidFractal(f) && UnitStream(rand) && config.width > 0 && config.height > 0
    ensures |samples| <= config.points * config.plotted
    ensures Fits(samples, config.width * config.height)
  {
    Orbits(f, rand, config, config.points).samples
  }

  /**
   * Across one call every hit count is non-decreasing, and the total hit count
   * grows by at least 0 and at most `POINTS * PLOTTED_ITERS`.
   */
  lemma CallBounds(g: Grids, f: Fractal, rand: Stream, config: Config)
    requires ValidFractal(f) && UnitStream(rand) && config.width > 0 && config.height > 0
    requires Shaped(g) && |g.counts| == config.width * config.height
    ensures var after := Deposit(g, Samples(f, rand, config));
      (forall i :: 0 <= i < |g.counts| ==> g.counts[i] <= after.counts[i]) &&
      Total(g.counts) <= Total(after.counts) <= Total(g.counts) + config.points * config.plotted
  {
    var samples := Samples(f, rand, config);
    DepositMonotone(g, samples);
    DepositTotal(g, samples);
  }

  /**
   * Two calls in a row without a reset: the second starts from the grids the first
   * left, so no count drops below its value after the first call.
   */
  lemma TwoCallsMonotone(g: Grids, f: Fractal, rand1: Stream, rand2: Stream, config: Config)
    requires ValidFractal(f) && UnitStream(rand1) && UnitStream(rand2)
    requires config.width > 0 && config.height > 0
    requires Shaped(g) && |g.counts| == config.width * config.height
    ensures var first := Deposit(g, Samples(f, rand1, config));
      var second := Deposit(first, Samples(f, rand2, config));
      forall i :: 0 <= i < |g.counts| ==> g.counts[i] <= first.counts[i] <= second.counts[i]
  {
    var first := Deposit(g, Samples(f, rand1, config));
    DepositMonotone(g, Samples(f, rand1, config));
    DepositMonotone(first, Samples(f, rand2, config));
  }

  /** Every transform, the final one included, leaves every point where it is. */
  ghost predicate FixesEveryPoint(f: Fractal) {
    (forall p :: Apply(f.final, p) == p) &&
    forall i, p :: 0 <= i < |f.variations| ==> Apply(f.variations[i], p) == p
  }

  lemma {:induction false} WarmUpFixed(f: Fractal, rand: Stream, w: Walker, n: nat)
    requires ValidFractal(f) && UnitStream(rand) && FixesEveryPoint(f)
    ensures WarmUp(f, rand, w, n).p == w.p
  {
    if n > 0 {
      WarmUpFixed(f, rand, w, n - 1);
    }
  }

  /**
   * With transforms that fix every point and the one-entry colormap `[a]`, `n`
   * plotted steps from an in-bounds point record `n` identical samples: its cell,
   * the colour `a`.
   */
  lemma {:induction false} PlotFixed(f: Fractal, rand: Stream, width: nat, height: nat, w: Walker, n: nat, a: Color)
    requires PlotReady(f, rand, width, height, w) && FixesEveryPoint(f)
    requires f.colormap == [a] && InBounds(w.p)
    ensures Plot(f, rand, width, height, w, n).w.p == w.p
    ensures Plot(f, rand, width, height, w, n).samples == seq(n, _ => Sample(Cell(w.p, width, height), a))
  {
    if n > 0 {
      PlotFixed(f, rand, width, height, w, n - 1, a);
      var before := Plot(f, rand, width, height, w, n - 1);
      var step := PlotStep(f, rand, width, height, before.w);
      assert step.w.p == w.p;
      ColorAtSingleEntry(step.w.c, a);
      assert step.samples == [Sample(Cell(w.p, width, height), a)];
    }
  }

  /**
   * A one-orbit call on a fractal whose transforms fix every point, with the
   * one-entry colormap `[a]`: the seed never moves, so every plotted step records
   * the seed's cell with the colour `a`.
   */
  lemma FixedFlameSamples(f: Fractal, rand: Stream, config: Config, a: Color)
    requires ValidFractal(f) && UnitStream(rand) && FixesEveryPoint(f) && f.colormap == [a]
    requires config.width > 0 && config.height > 0 && config.points == 1
    ensures var seed := Point(rand(1) * 2.0 - 1.0, rand(2) * 2.0 - 1.0);
      InBounds(seed) &&
      Samples(f, rand, config) == seq(config.plotted, _ => Sample(Cell(seed, config.width, config.height), a))
  {
    var seeded := Seed(rand, Start(rand));
    WarmUpFixed(f, rand, seeded, config.skipped);
    var warm := WarmUp(f, rand, seeded, config.skipped);
    PlotFixed(f, rand, config.width, config.height, warm, config.plotted, a);
    assert Orbits(f, rand, config, 1).samples == [] + Plot(f, rand, config.width, config.height, warm, config.plotted).samples;
  }

  /**
   * The same call on cleared grids: the seed's cell ends with count
   * `PLOTTED_ITERS` and colour sums `PLOTTED_ITERS` times `a`; every other count
   * and sum stays 0.
   */
  lemma FixedFlameHitsSeedCell(f: Fractal, rand: Stream, config: Config, a: Color)
    requires ValidFractal(f) && UnitStream(rand) && FixesEveryPoint(f) && f.colormap == [a]
    requires config.width > 0 && config.height > 0 && config.points == 1
    ensures var seed := Point(rand(1) * 2.0 - 1.0, rand(2) * 2.0 - 1.0);
      InBounds(seed) &&
      var cell := Cell(seed, config.width, config.height);
      OnlyCell(Deposit(Zeros(config.width * config.height), Samples(f, rand, config)), cell, config.plotted, a)
  {
    FixedFlameSamples(f, rand, config, a);
    var seed := Point(rand(1) * 2.0 - 1.0, rand(2) * 2.0 - 1.0);
    DepositRepeated(config.width * config.height, Sample(Cell(seed, config.width, config.height), a), config.plotted);
  }

  /**
   * `addPointToArray` on the arrays, for an in-bounds display point: one count up
   * by 1, the three colour sums of the same cell up by the sampled colour.
   */
  method AddPointToArray(pointsArray: array<int>, colorArray: array<real>, p: Point, c: real,
                         width: nat, height: nat, colormap: seq<Color>)
    requires InBounds(p) && width > 0 && height > 0
    requires 0.0 <= c <= 1.0 && |colormap| >= 1
    requires pointsArray.Length == width * height && colorArray.Length == 3 * (width * height)
    modifies pointsArray, colorArray
    ensures Grids(pointsArray[..], colorArray[..]) ==
      Record(Grids(old(pointsArray[..]), old(colorArray[..])), Sample(Cell(p, width, height), GetColorAt(c, colormap)))
  {
    var cell := Cell(p, width, height);
    pointsArray[cell] := pointsArray[cell] + 1;
    var color := GetColorAt(c, colormap);
    var k := 3 * cell;
    colorArray[k + 0] := colorArray[k + 0] + color.r;
    colorArray[k + 1] := colorArray[k + 1] + color.g;
    colorArray[k + 2] := colorArray[k + 2] + color.b;
  }

  /** The warm-up loop of one orbit: `n` steps that move the point and touch no grid. */
  method WarmUpLoop(f: Fractal, rand: Stream, w: Walker, n: nat) returns (r: Walker)
    requires ValidFractal(f) && UnitStream(rand)
    ensures r == WarmUp(f, rand, w, n)
  {
    var p, next := w.p, w.next;
    for j := 0 to n
      invariant Walker(p, w.c, next) == WarmUp(f, rand, w, j)
    {
      var variation := Pick(f, rand, next);
      p := Apply(variation, p);
      next := next + 1;
    }
    r := Walker(p, w.c, next);
  }

  /**
   * One plotted step on the arrays: pick a transform, move the point, blend the
   * colour scalar, and record the display point if it passes the bounds test.
   */
  method PlotOnce(f: Fractal, rand: Stream, width: nat, height: nat, w: Walker,
                  pointsArray: array<int>, colorArray: array<real>) returns (r: Walker)
    requires PlotReady(f, rand, width, height, w)
    requires pointsArray.Length == width * height && colorArray.Length == 3 * (width * height)
    modifies pointsArray, colorArray
    ensures r == PlotStep(f, rand, width, height, w).w
    ensures Grids(pointsArray[..], colorArray[..]) ==
      Deposit(Grids(old(pointsArray[..]), old(colorArray[..])), PlotStep(f, rand, width, height, w).samples)
  {
    ghost var step := PlotStep(f, rand, width, height, w);
    ghost var before := Grids(pointsArray[..], colorArray[..]);
    var variation := Pick(f, rand, w.next);
    var p := Apply(variation, w.p);
    var c := Blend(w.c, variation.c);
    var plottedP := Apply(f.final, p);
    if InBounds(plottedP) {
      AddPointToArray(pointsArray, colorArray, plottedP, c, width, height, f.colormap);
      assert step.samples[..0] == [];
    }
    r := Walker(p, c, w.next + 1);
  }

  /**
   * The plotted loop of one orbit: `n` steps, each recording its display point
   * when that point passes the bounds test.
   */
  method PlotLoop(f: Fractal, rand: Stream, width: nat, height: nat, w: Walker, n: nat,
                  pointsArray: array<int>, colorArray: array<real>) returns (r: Walker)
    requires PlotReady(f, rand, width, height, w)
    requires pointsArray.Length == width * height && colorArray.Length == 3 * (width * height)
    modifies pointsArray, colorArray
    ensures r == Plot(f, rand, width, height, w, n).w
    ensures Grids(pointsArray[..], colorArray[..]) ==
      Deposit(Grids(old(pointsArray[..]), old(colorArray[..])), Plot(f, rand, width, height, w, n).samples)
  {
    ghost var start := Grids(pointsArray[..], colorArray[..]);
    r := w;
    for j := 0 to n
      invariant r == Plot(f, rand, width, height, w, j).w
      invariant Grids(pointsArray[..], colorArray[..]) == Deposit(start, Plot(f, rand, width, height, w, j).samples)
    {
      ghost var plotted := Plot(f, rand, width, height, w, j).samples;
      ghost var step := PlotStep(f, rand, width, height, r);
      r := PlotOnce(f, rand, width, height, r, pointsArray, colorArray);
      DepositAppend(start, plotted, step.samples);
    }
  }

  /** One orbit on the arrays: a fresh random point, its warm-up loop, its plotted loop. */
  method OrbitOnce(f: Fractal, rand: Stream, config: Config, w: Walker,
                   pointsArray: array<int>, colorArray: array<real>) returns (r: Walker)
    requires PlotReady(f, rand, config.width, config.height, w)
    requires pointsArray.Length == config.width * config.height
    requires colorArray.Length == 3 * (config.width * config.height)
    modifies pointsArray, colorArray
    ensures r == Orbit(f, rand, config, w).w
    ensures Grids(pointsArray[..], colorArray[..]) ==
      Deposit(Grids(old(pointsArray[..]), old(colorArray[..])), Orbit(f, rand, config, w).samples)
  {
    var p := Point(rand(w.next) * 2.0 - 1.0, rand(w.next + 1) * 2.0 - 1.0);
    assert Walker(p, w.c, w.next + 2) == Seed(rand, w);
    var warm := WarmUpLoop(f, rand, Walker(p, w.c, w.next + 2), config.skipped);
    assert Orbit(f, rand, config, w) == Plot(f, rand, config.width, config.height, warm, config.plotted);
    r := PlotLoop(f, rand, config.width, config.height, warm, config.plotted, pointsArray, colorArray);
  }

  /** The orbit loop: `config.points` orbits, the colour scalar drawn once before the first. */
  method OrbitLoop(f: Fractal, rand: Stream, config: Config, pointsArray: array<int>, colorArray: array<real>)
    requires ValidFractal(f) && UnitStream(rand) && config.width > 0 && config.height > 0
    requires pointsArray.Length == config.width * config.height
    requires colorArray.Length == 3 * (config.width * config.height)
    modifies pointsArray, colorArray
    ensures Grids(pointsArray[..], colorArray[..]) ==
      Deposit(Grids(old(pointsArray[..]), old(colorArray[..])), Samples(f, rand, config))
  {
    ghost var start := Grids(pointsArray[..], colorArray[..]);
    var p := Point(0.0, 0.0);
    var c := rand(0);
    var next := 1;
    for i := 0 to config.points
      invariant Walker(p, c, next) == Orbits(f, rand, config, i).w
      invariant Grids(pointsArray[..], colorArray[..]) == Deposit(start, Orbits(f, rand, config, i).samples)
    {
      ghost var done := Orbits(f, rand, config, i).samples;
      ghost var orbit := Orbit(f, rand, config, Walker(p, c, next));
      assert Orbits(f, rand, config, i + 1) == Run(orbit.w, done + orbit.samples);
      var w := OrbitOnce(f, rand, config, Walker(p, c, next), pointsArray, colorArray);
      p, c, next := w.p, w.c, w.next;
      DepositAppend(start, done, orbit.samples);
    }
  }

  /**
   * `generatePointsFor`: resolves its options, uses the grids it is given (or fresh
   * zeroed ones), runs the orbits and returns the grids, which then hold the
   * deposit of `Samples` on top of what they held.
   */
  method GeneratePointsFor(f: Fractal, options: Options, rand: Stream, givenPoints: array?<int>, givenColors: array?<real>)
    returns (pointsArray: array<int>, colorArray: array<real>)
    requires ValidFractal(f) && UnitStream(rand)
    requires givenPoints != null ==> givenPoints.Length == Resolve(options).width * Resolve(options).height
    requires givenColors != null ==> givenColors.Length == 3 * (Resolve(options).width * Resolve(options).height)
    modifies givenPoints, givenColors
    ensures givenPoints != null ==> pointsArray == givenPoints
    ensures givenPoints == null ==> fresh(pointsArray)
    ensures givenColors != null ==> colorArray == givenColors
    ensures givenColors == null ==> fresh(colorArray)
    ensures var config := Resolve(options);
      var n := config.width * config.height;
      var before := Grids(
        if givenPoints != null then old(givenPoints[..]) else Zeros(n).counts,
        if givenColors != null then old(givenColors[..]) else Zeros(n).sums);
      Grids(pointsArray[..], colorArray[..]) == Deposit(before, Samples(f, rand, config))
  {
    var config := Resolve(options);
    var width, height := config.width, config.height;
    if givenPoints != null {
      pointsArray := givenPoints;
    } else {
      pointsArray := new int[width * height](_ => 0);
      assert pointsArray[..] == Zeros(width * height).counts;
    }
    if givenColors != null {
      colorArray := givenColors;
    } else {
      colorArray := new real[3 * (width * height)](_ => 0.0);
      assert colorArray[..] == Zeros(width * height).sums;
    }
    OrbitLoop(f, rand, config, pointsArray, colorArray);
  }
}

=== FILE: colormap.dfy ===
/**
 * Colour sampling from a colormap: `getColorAt` and the `vec3.lerp` it relies on.
 * A colour index in [0,1] is stretched over the colormap; an integral position
 * selects an entry, any other position blends its two neighbours.
 */
module Colormap {

  /** An RGB triple (`vec3`); channels of a loaded colormap lie in [0,1]. */
  datatype Color = Color(r: real, g: real, b: real)

  /** The value of a freshly created `vec3`. */
  const Black := Color(0.0, 0.0, 0.0)

  predicate InUnit(c: Color) {
    0.0 <= c.r <= 1.0 && 0.0 <= c.g <= 1.0 && 0.0 <= c.b <= 1.0
  }

  /** A colormap as the loader delivers it: at least one entry, every channel in [0,1]. */
  predicate ValidColormap(colormap: seq<Color>) {
    |colormap| >= 1 && forall i :: 0 <= i < |colormap| ==> InUnit(colormap[i])
  }

  /** `v` lies between `u` and `w`, whichever way round they are. */
  predicate Between(u: real, w: real, v: real) {
    (u <= v <= w) || (w <= v <= u)
  }

  /** Every channel of `c` lies between the matching channels of `a` and `b`. */
  predicate ChannelsBetween(a: Color, b: Color, c: Color) {
    Between(a.r, b.r, c.r) && Between(a.g, b.g, c.g) && Between(a.b, b.b, c.b)
  }

  lemma MulNonNegative(a: real, b: real)
    requires 0.0 <= a && 0.0 <= b
    ensures 0.0 <= a * b
  {
  }

  lemma LerpChannel(u: real, w: real, t: real)
    requires 0.0 <= t <= 1.0
    ensures Between(u, w, u + t * (w - u))
  {
    if u <= w {
      MulNonNegative(t, w - u);
      MulNonNegative(1.0 - t, w - u);
      assert (1.0 - t) * (w - u) == (w - u) - t * (w - u);
    } else {
      MulNonNegative(t, u - w);
      MulNonNegative(1.0 - t, u - w);
      assert (1.0 - t) * (u - w) == (u - w) - t * (u - w);
      assert t * (w - u) == -(t * (u - w));
    }
  }

  /** `vec3.lerp(out, a, b, t)`: each channel is a + t * (b - a). */
  function Lerp(a: Color, b: Color, t: real): (c: Color)
    ensures t == 0.0 ==> c == a
    ensures t == 1.0 ==> c == b
  {
    Color(a.r + t * (b.r - a.r), a.g + t * (b.g - a.g), a.b + t * (b.b - a.b))
  }

  /** A blend with a weight in [0,1] stays, channel by channel, between its ends. */
  lemma LerpBetween(a: Color, b: Color, t: real)
    requires 0.0 <= t <= 1.0
    ensures ChannelsBetween(a, b, Lerp(a, b, t))
  {
    LerpChannel(a.r, b.r, t);
    LerpChannel(a.g, b.g, t);
    LerpChannel(a.b, b.b, t);
  }

  /** `Math.ceil`: the least integer not below `x`. */
  function Ceil(x: real): (n: int)
    ensures x <= n as real < x + 1.0
  {
    if x == x.Floor as real then x.Floor else x.Floor + 1
  }

  /** The position `cindex * (colormap.length - 1)` that `getColorAt` looks up. */
  function Position(cindex: real, n: nat): real {
    cindex * (n - 1) as real
  }

  lemma PositionInRange(cindex: real, n: nat)
    requires 0.0 <= cindex <= 1.0 && n >= 1
    ensures 0.0 <= Position(cindex, n) <= (n - 1) as real
  {
    var m := (n - 1) as real;
    MulNonNegative(cindex, m);
    MulNonNegative(1.0 - cindex, m);
    assert m - cindex * m == (1.0 - cindex) * m;
  }

  /** True when the position is an integer, i.e. `idx === Math.floor(idx)`. */
  predicate AtEntry(cindex: real, n: nat) {
    Position(cindex, n) == Position(cindex, n).Floor as real
  }

  /**
   * `getColorAt`: the entry at an integral position, otherwise the blend of the
   * entries at the floor and the ceiling of the position, weighted by how far the
   * position lies past the floor. The result never leaves the channel range of the
   * two neighbouring entries, hence never leaves [0,1] for a loaded colormap.
   */
  function GetColorAt(cindex: real, colormap: seq<Color>): (c: Color)
    requires 0.0 <= cindex <= 1.0 && |colormap| >= 1
    ensures var left := Position(cindex, |colormap|).Floor;
      0 <= left < |colormap| &&
      ChannelsBetween(colormap[left], colormap[if left + 1 < |colormap| then left + 1 else left], c)
    ensures ValidColormap(colormap) ==> InUnit(c)
  {
    var idx := Position(cindex, |colormap|);
    PositionInRange(cindex, |colormap|);
    var left := idx.Floor;
    if idx == left as real then
      colormap[left]
    else
      var right := Ceil(idx);
      var bias := (idx - left as real) / (right - left) as real;
      assert right == left + 1;
      assert ValidColormap(colormap) ==> InUnit(colormap[left]) && InUnit(colormap[right]);
      LerpBetween(colormap[left], colormap[right], bias);
      Lerp(colormap[left], colormap[right], bias)
  }

  /** An integral position returns that entry unchanged. */
  lemma {:induction false} ColorAtEntry(cindex: real, colormap: seq<Color>, k: int)
    requires 0.0 <= cindex <= 1.0 && |colormap| >= 1
    requires Position(cindex, |colormap|) == k as real
    ensures 0 <= k < |colormap| && GetColorAt(cindex, colormap) == colormap[k]
  {
    PositionInRange(cindex, |colormap|);
    assert Position(cindex, |colormap|).Floor == k;
  }

  /** Index 0 gives the first entry and index 1 the last one. */
  lemma ColorAtEnds(colormap: seq<Color>)
    requires |colormap| >= 1
    ensures GetColorAt(0.0, colormap) == colormap[0]
    ensures GetColorAt(1.0, colormap) == colormap[|colormap| - 1]
  {
    ColorAtEntry(0.0, colormap, 0);
    ColorAtEntry(1.0, colormap, |colormap| - 1);
  }

  /** A one-entry colormap always yields its single entry. */
  lemma ColorAtSingleEntry(cindex: real, a: Color)
    requires 0.0 <= cindex <= 1.0
    ensures GetColorAt(cindex, [a]) == a
  {
    ColorAtEntry(cindex, [a], 0);
  }

  /**
   * At a position strictly between two entries, the ceiling is the floor plus one,
   * both are entries of the colormap, the bias is the fractional part (strictly
   * between 0 and 1), and the result is the blend of the two neighbours.
   */
  lemma ColorAtInterpolates(cindex: real, colormap: seq<Color>)
    requires 0.0 <= cindex <= 1.0 && |colormap| >= 1
    requires !AtEntry(cindex, |colormap|)
    ensures var idx := Position(cindex, |colormap|);
      var left := idx.Floor;
      var bias := idx - left as real;
      Ceil(idx) == left + 1 && 0 <= left && left + 1 <= |colormap| - 1 &&
      0.0 < bias < 1.0 &&
      GetColorAt(cindex, colormap) == Lerp(colormap[left], colormap[left + 1], bias)
  {
    PositionInRange(cindex, |colormap|);
  }

  /** For a two-entry colormap, index 0.5 yields the channel-wise midpoint. */
  lemma ColorAtMidpoint(a: Color, b: Color)
    ensures GetColorAt(0.5, [a, b]) ==
      Color((a.r + b.r) / 2.0, (a.g + b.g) / 2.0, (a.b + b.b) / 2.0)
  {
    ColorAtInterpolates(0.5, [a, b]);
  }

  /**
   * The colour `addPointToArray` accumulates, as written: it calls
   * `getColorAt(color, c, colormap)` and then reads its scratch vector `color`,
   * ignoring the return value. Only the blending path writes into that vector, so
   * at an integral position the scratch vector keeps whatever it held before. The
   * colour read back is the colour `getColorAt` returns exactly when the position is
   * fractional or the scratch vector already holds the entry at that position.
   */
  function ScratchAfterGetColorAt(scratch: Color, cindex: real, colormap: seq<Color>): (c: Color)
    requires 0.0 <= cindex <= 1.0 && |colormap| >= 1
    ensures c == GetColorAt(cindex, colormap) <==>
      (!AtEntry(cindex, |colormap|) || scratch == colormap[Position(cindex, |colormap|).Floor])
  {
    if AtEntry(cindex, |colormap|) then scratch else GetColorAt(cindex, colormap)
  }

  /**
   * With a one-entry colormap every position is integral, so the scratch vector is
   * never written: it stays black and every recorded sample adds black, whatever
   * the single entry is; unless that entry is black, it differs from the colour
   * `getColorAt` returns.
   */
  lemma SingleEntryAccumulatesBlack(cindex: real, a: Color)
    requires 0.0 <= cindex <= 1.0
    ensures ScratchAfterGetColorAt(Black, cindex, [a]) == Black
    ensures a != Black ==> GetColorAt(cindex, [a]) != ScratchAfterGetColorAt(Black, cindex, [a])
  {
    ColorAtSingleEntry(cindex, a);
  }
}

=== FILE: pixels.dfy ===
/**
 * From a display point to a cell of the accumulation grids: `pointIsInBounds` and
 * the index arithmetic of `addPointToArray`. Cells are laid out row by row,
 * cell `row * width + column`.
 */
module Pixels {

  /** A `vec2`; points are finite reals here. */
  datatype Point = Point(x: real, y: real)

  /** `pointIsInBounds`: both coordinates in [-1,1], ends included. */
  predicate InBounds(p: Point) {
    -1.0 <= p.x <= 1.0 && -1.0 <= p.y <= 1.0
  }

  /** `Math.floor((v + 1) / 2 * n)`: a coordinate in [-1,1] stretched over n cells. */
  function Scaled(v: real, n: nat): int {
    ((v + 1.0) / 2.0 * n as real).Floor
  }

  /** A coordinate in [-1,1) lands on one of the n cells, -1 on the first. */
  lemma ScaledInRange(v: real, n: nat)
    requires -1.0 <= v < 1.0 && n > 0
    ensures 0 <= Scaled(v, n) < n
    ensures v == -1.0 ==> Scaled(v, n) == 0
  {
    var t := (v + 1.0) / 2.0;
    var x := t * n as real;
    assert 0.0 <= t < 1.0;
    assert 0.0 <= x by {
      assert x == t * n as real;
    }
    assert x < n as real by {
      assert n as real - x == (1.0 - t) * n as real;
      PositiveProduct(1.0 - t, n as real);
    }
    assert Scaled(v, n) == x.Floor;
    if v == -1.0 {
      assert t == 0.0 && x == 0.0;
    }
  }

  lemma PositiveProduct(a: real, b: real)
    requires a > 0.0 && b > 0.0
    ensures a * b > 0.0
  {
  }

  /** A coordinate of exactly 1 is stretched to n, one past the last cell. */
  lemma ScaledAtOne(n: nat)
    ensures Scaled(1.0, n) == n
  {
  }

  lemma {:induction false} MulAtLeast(k: int, width: nat)
    requires k >= 1
    ensures k * width >= width
    decreases k
  {
    if k > 1 {
      MulAtLeast(k - 1, width);
      assert k * width == (k - 1) * width + width;
    }
  }

  /** A row-major index decodes back into its row and its column. */
  lemma RowMajorDecode(column: int, row: int, width: nat)
    requires 0 <= column < width
    ensures (row * width + column) / width == row
    ensures (row * width + column) % width == column
  {
    var i := row * width + column;
    var q, r := i / width, i % width;
    assert i == q * width + r && 0 <= r < width;
    assert (row - q) * width == row * width - q * width;
    assert (row - q) * width == r - column;
    if row > q {
      MulAtLeast(row - q, width);
    } else if row < q {
      MulAtLeast(q - row, width);
    }
  }

  /**
   * The cell `addPointToArray` increments, as written: `y_array * WIDTH + x_array`,
   * with no further check. Whenever the column is inside the row, the index
   * decodes back into that row and column.
   */
  function PixelIndex(p: Point, width: nat, height: nat): (idx: int)
    ensures 0 <= Scaled(p.x, width) < width ==>
      idx / width == Scaled(p.y, height) && idx % width == Scaled(p.x, width)
  {
    if 0 <= Scaled(p.x, width) < width then
      RowMajorDecode(Scaled(p.x, width), Scaled(p.y, height), width);
      Scaled(p.y, height) * width + Scaled(p.x, width)
    else
      Scaled(p.y, height) * width + Scaled(p.x, width)
  }

  lemma RowMajorInGrid(column: int, row: int, width: nat, height: nat)
    requires 0 <= column < width && 0 <= row < height
    ensures 0 <= row * width + column < width * height
  {
    assert row * width <= (height - 1) * width;
  }

  /** A point with both coordinates in [-1,1) lands on a cell of the grid. */
  lemma {:induction false} PixelIndexInGrid(p: Point, width: nat, height: nat)
    requires -1.0 <= p.x < 1.0 && -1.0 <= p.y < 1.0
    requires width > 0 && height > 0
    ensures 0 <= Scaled(p.x, width) < width && 0 <= Scaled(p.y, height) < height
    ensures 0 <= PixelIndex(p, width, height) < width * height
  {
    ScaledInRange(p.x, width);
    ScaledInRange(p.y, height);
    RowMajorInGrid(Scaled(p.x, width), Scaled(p.y, height), width, height);
  }

  /**
   * The point (1, -1) passes the bounds test, yet its column is `width`: its hit
   * is recorded on the first cell of the second row, not on the last cell of the
   * first row where it belongs.
   */
  lemma RightEdgeWrapsToNextRow(width: nat, height: nat)
    requires width > 0 && height >= 2
    ensures InBounds(Point(1.0, -1.0))
    ensures Scaled(1.0, width) == width
    ensures PixelIndex(Point(1.0, -1.0), width, height) == 1 * width + 0
  {
    ScaledAtOne(width);
    ScaledInRange(-1.0, height);
  }

  /** Any point on the top edge y = 1 passes the bounds test but indexes past the grid. */
  lemma {:induction false} TopEdgeLeavesGrid(x: real, width: nat, height: nat)
    requires -1.0 <= x <= 1.0 && width > 0 && height > 0
    ensures InBounds(Point(x, 1.0))
    ensures PixelIndex(Point(x, 1.0), width, height) >= width * height
  {
    ScaledAtOne(height);
    if x < 1.0 {
      ScaledInRange(x, width);
    } else {
      ScaledAtOne(width);
    }
  }

  /** The column of an in-bounds point, the right edge folded onto the last column. */
  function Column(p: Point, width: nat): (column: nat)
    requires InBounds(p) && width > 0
    ensures column < width
    ensures p.x < 1.0 ==> column == Scaled(p.x, width)
    ensures p.x == 1.0 ==> column == width - 1
  {
    if p.x < 1.0 then
      ScaledInRange(p.x, width);
      Scaled(p.x, width)
    else
      width - 1
  }

  /** The row of an in-bounds point, the top edge folded onto the last row. */
  function Row(p: Point, height: nat): (row: nat)
    requires InBounds(p) && height > 0
    ensures row < height
    ensures p.y < 1.0 ==> row == Scaled(p.y, height)
    ensures p.y == 1.0 ==> row == height - 1
  {
    if p.y < 1.0 then
      ScaledInRange(p.y, height);
      Scaled(p.y, height)
    else
      height - 1
  }

  /**
   * The cell an in-bounds point is recorded on: always inside the grid, and the
   * cell `addPointToArray` computes whenever neither coordinate is exactly 1.
   */
  function Cell(p: Point, width: nat, height: nat): (cell: nat)
    requires InBounds(p) && width > 0 && height > 0
    ensures cell < width * height
    ensures p.x < 1.0 && p.y < 1.0 ==> cell == PixelIndex(p, width, height)
  {
    RowMajorInGrid(Column(p, width), Row(p, height), width, height);
    Row(p, height) * width + Column(p, width)
  }

  /**
   * With the edges folded inward, the point (1, -1) lands on the last cell of the
   * first row and the corner (1, 1) on the very last cell of the grid.
   */
  lemma EdgesStayInGrid(width: nat, height: nat)
    requires width > 0 && height > 0
    ensures Cell(Point(1.0, -1.0), width, height) == width - 1
    ensures Cell(Point(1.0, 1.0), width, height) == width * height - 1
  {
    ScaledInRange(-1.0, height);
    assert (height - 1) * width + (width - 1) == width * height - 1;
  }
}

=== FILE: rendering.dfy ===
/**
 * From the accumulation grids to RGBA bytes: the scan of `getMaxFreq`, the pixel
 * loop of `render` and the `Uint8ClampedArray` it writes into. The tone curve
 * (`Math.log(freq) / Math.log(maxFreq) * 255`) is a parameter.
 */
module Rendering {
  import opened Pixels

  /** The value `getMaxFreq` takes the logarithm of: the largest count, or 0 if none is positive. */
  function MaxFreqOf(counts: seq<int>): (m: int)
    ensures m >= 0
    ensures forall i :: 0 <= i < |counts| ==> counts[i] <= m
    ensures m == 0 || m in counts
    ensures m > 0 <==> exists i :: 0 <= i < |counts| && counts[i] > 0
    decreases |counts|
  {
    if counts == [] then 0
    else
      var init := counts[..|counts| - 1];
      var m := MaxFreqOf(init);
      assert forall i :: 0 <= i < |init| ==> init[i] == counts[i];
      assert m in init ==> m in counts;
      if counts[|counts| - 1] > m then counts[|counts| - 1] else m
  }

  /** The scan of `getMaxFreq`, up to (not including) its final `Math.log`. */
  method MaxFreq(pointsArray: array<int>) returns (maxFreq: int)
    ensures maxFreq == MaxFreqOf(pointsArray[..])
  {
    maxFreq := 0;
    for i := 0 to pointsArray.Length
      invariant maxFreq == MaxFreqOf(pointsArray[..i])
    {
      var freq := pointsArray[i];
      if freq > maxFreq {
        maxFreq := freq;
      }
      assert pointsArray[..i + 1][..i] == pointsArray[..i];
    }
    assert pointsArray[..pointsArray.Length] == pointsArray[..];
  }

  /**
   * A store into a `Uint8ClampedArray`: below 0 gives 0, above 255 gives 255, and
   * anything between is rounded to the nearest integer, ties to the even one.
   */
  function ClampByte(v: real): (b: int)
    ensures 0 <= b <= 255
    ensures v <= 0.0 ==> b == 0
    ensures v >= 255.0 ==> b == 255
    ensures 0.0 <= v <= 255.0 ==> -0.5 <= b as real - v <= 0.5
    ensures 0.0 < v < 255.0 && v - v.Floor as real == 0.5 ==> b % 2 == 0
  {
    if v <= 0.0 then 0
    else if v >= 255.0 then 255
    else
      var n := v.Floor;
      var frac := v - n as real;
      if frac < 0.5 then n
      else if frac > 0.5 then n + 1
      else if n % 2 == 0 then n
      else n + 1
  }

  /**
   * One colour byte of a pixel: its colour sum divided by its hit count, times 255.
   * With no hits the quotient is NaN (for a zero sum, stored as 0) or an infinity
   * (stored as 255 or 0 by its sign).
   */
  function ChannelByte(sum: real, freq: int): (b: int)
    ensures 0 <= b <= 255
    ensures freq == 0 ==> b == (if sum > 0.0 then 255 else 0)
    ensures freq != 0 && 0.0 <= sum / freq as real <= 1.0 ==>
      -0.5 <= b as real - sum / freq as real * 255.0 <= 0.5
  {
    if freq == 0 then (if sum > 0.0 then 255 else 0)
    else ClampByte(sum / freq as real * 255.0)
  }

  /**
   * Byte `i` of the RGBA buffer: byte `k` of pixel `i / 4`, `k = i % 4`. Bytes 0..2
   * come from the colour sums `3 * pixel + k` and the pixel's count; byte 3 is the
   * clamped tone curve at the pixel's count.
   */
  function PixelByte(counts: seq<int>, sums: seq<real>, maxFreq: int, tone: (int, int) -> real, i: nat): (b: int)
    requires i < 4 * |counts| && |sums| == 3 * |counts|
    ensures 0 <= b <= 255
  {
    var pixel := i / 4;
    var k := i % 4;
    if k < 3 then ChannelByte(sums[3 * pixel + k], counts[pixel])
    else ClampByte(tone(counts[pixel], maxFreq))
  }

  /**
   * Row-major layout: pixel (x, y) is cell `y * width + x`, and its bytes
   * `4 * cell + k` (k < 4) are distinct across all pixels and fill the buffer;
   * from a byte index the pixel and the byte within it are recovered.
   */
  lemma {:induction false} PixelSlot(width: nat, height: nat, x: int, y: int, k: int)
    requires 0 <= x < width && 0 <= y < height && 0 <= k < 4
    ensures var cell := y * width + x;
      0 <= cell < width * height &&
      0 <= 4 * cell + k < 4 * (width * height) &&
      (4 * cell + k) / 4 == cell && (4 * cell + k) % 4 == k &&
      cell / width == y && cell % width == x
  {
    RowMajorInGrid(x, y, width, height);
    RowMajorDecode(x, y, width);
    RowMajorDecode(k, y * width + x, 4);
  }

  /** Byte `k` of pixel `cell`, by the definition of `PixelByte`. */
  lemma PixelByteAt(counts: seq<int>, sums: seq<real>, maxFreq: int, tone: (int, int) -> real, cell: nat, k: nat)
    requires cell < |counts| && |sums| == 3 * |counts| && k < 4
    ensures 4 * cell + k < 4 * |counts|
    ensures PixelByte(counts, sums, maxFreq, tone, 4 * cell + k) ==
      if k < 3 then ChannelByte(sums[3 * cell + k], counts[cell]) else ClampByte(tone(counts[cell], maxFreq))
  {
    RowMajorDecode(k, cell, 4);
  }

  /** `setPixel`: the four bytes of pixel (x, y) and nothing else. */
  method SetPixel(data: array<int>, width: nat, x: nat, y: nat, r: int, g: int, b: int, a: int)
    requires x < width && 4 * (y * width + x) + 3 < data.Length
    modifies data
    ensures var base := 4 * (y * width + x);
      data[base + 0] == r && data[base + 1] == g && data[base + 2] == b && data[base + 3] == a
    ensures forall i :: 0 <= i < data.Length && !(4 * (y * width + x) <= i < 4 * (y * width + x) + 4) ==>
      data[i] == old(data[i])
  {
    data[y * width * 4 + x * 4 + 0] := r;
    data[y * width * 4 + x * 4 + 1] := g;
    data[y * width * 4 + x * 4 + 2] := b;
    data[y * width * 4 + x * 4 + 3] := a;
  }

  /**
   * One iteration of the pixel loop of `render`: reads the count of pixel (x, y)
   * and its three colour sums at `3 * (y * width + x) + 0..2`, and writes its four
   * bytes at `4 * (y * width + x) + 0..3`, nothing else.
   */
  method ShadePixel(data: array<int>, width: nat, x: nat, y: nat, pointsArray: array<int>,
                    colorArray: array<real>, maxFreq: int, tone: (int, int) -> real)
    requires x < width && y * width + x < pointsArray.Length
    requires colorArray.Length == 3 * pointsArray.Length && data.Length == 4 * pointsArray.Length
    requires data != pointsArray
    modifies data
    ensures forall i :: 0 <= i < data.Length ==>
      data[i] == if 4 * (y * width + x) <= i < 4 * (y * width + x) + 4
                 then PixelByte(pointsArray[..], colorArray[..], maxFreq, tone, i)
                 else old(data[i])
  {
    var pixelIdx := y * width + x;
    var freq := pointsArray[pixelIdx];
    var colorArrayIdx := y * width * 3 + x * 3;
    var r := ChannelByte(colorArray[colorArrayIdx + 0], freq);
    var g := ChannelByte(colorArray[colorArrayIdx + 1], freq);
    var b := ChannelByte(colorArray[colorArrayIdx + 2], freq);
    var alpha := ClampByte(tone(freq, maxFreq));
    SetPixel(data, width, x, y, r, g, b, alpha);
    ghost var base := 4 * pixelIdx;
    forall i | 0 <= i < data.Length
      ensures data[i] == if base <= i < base + 4
                         then PixelByte(pointsArray[..], colorArray[..], maxFreq, tone, i)
                         else old(data[i])
    {
      if base <= i < base + 4 {
        var k := i - base;
        PixelByteAt(pointsArray[..], colorArray[..], maxFreq, tone, pixelIdx, k);
        assert k < 3 ==> colorArray[..][3 * pixelIdx + k] == colorArray[colorArrayIdx + k];
      }
    }
  }

  /**
   * One row of the pixel loop of `render`: pixels (0, y) .. (width - 1, y), cells
   * `rowStart = y * width` onwards, get their four bytes; the rest of `data` is
   * left as it was.
   */
  method ShadeRow(data: array<int>, width: nat, y: nat, ghost rowStart: nat, pointsArray: array<int>,
                  colorArray: array<real>, maxFreq: int, tone: (int, int) -> real)
    requires rowStart == y * width && rowStart + width <= pointsArray.Length
    requires colorArray.Length == 3 * pointsArray.Length && data.Length == 4 * pointsArray.Length
    requires data != pointsArray
    modifies data
    ensures forall i :: 0 <= i < data.Length ==>
      data[i] == if 4 * rowStart <= i < 4 * (rowStart + width)
                 then PixelByte(pointsArray[..], colorArray[..], maxFreq, tone, i)
                 else old(data[i])
  {
    for x := 0 to width
      invariant forall i :: 0 <= i < data.Length ==>
        data[i] == if 4 * rowStart <= i < 4 * (rowStart + x)
                   then PixelByte(pointsArray[..], colorArray[..], maxFreq, tone, i)
                   else old(data[i])
    {
      ShadePixel(data, width, x, y, pointsArray, colorArray, maxFreq, tone);
    }
  }

  /**
   * The pixel loop of `render`: every pixel of the `width` x `height` grid is
   * visited once, row by row, and its four bytes are written from its count and
   * its three colour sums; `data` receives nothing else.
   */
  method ShadeRows(data: array<int>, width: nat, height: nat, pointsArray: array<int>,
                   colorArray: array<real>, maxFreq: int, tone: (int, int) -> real)
    requires pointsArray.Length == width * height
    requires colorArray.Length == 3 * pointsArray.Length && data.Length == 4 * pointsArray.Length
    requires data != pointsArray
    modifies data
    ensures forall i :: 0 <= i < data.Length ==>
      data[i] == PixelByte(pointsArray[..], colorArray[..], maxFreq, tone, i)
  {
    ghost var rowStart := 0;
    for y := 0 to height
      invariant rowStart == y * width && rowStart <= pointsArray.Length
      invariant forall i :: 0 <= i < 4 * rowStart ==>
        data[i] == PixelByte(pointsArray[..], colorArray[..], maxFreq, tone, i)
    {
      RowInGrid(y, width, height);
      ShadeRow(data, width, y, rowStart, pointsArray, colorArray, maxFreq, tone);
      rowStart := rowStart + width;
    }
    RowsFillGrid(width, height);
  }

  /**
   * `render` after the canvas is sized: the largest count is scanned once, then
   * every byte of `data` is the byte `PixelByte` assigns it.
   */
  method Render(data: array<int>, width: nat, height: nat,
                pointsArray: array<int>, colorArray: array<real>, tone: (int, int) -> real)
    requires pointsArray.Length == width * height
    requires colorArray.Length == 3 * (width * height)
    requires data.Length == 4 * (width * height)
    requires data != pointsArray
    modifies data
    ensures forall i :: 0 <= i < data.Length ==>
      data[i] == PixelByte(pointsArray[..], colorArray[..], MaxFreqOf(pointsArray[..]), tone, i)
  {
    var maxFreq := MaxFreq(pointsArray);
    ShadeRows(data, width, height, pointsArray, colorArray, maxFreq, tone);
  }

  /** A whole row ends inside the grid, and the next row starts where it ends. */
  lemma RowInGrid(y: nat, width: nat, height: nat)
    requires y < height
    ensures y * width + width <= width * height
    ensures (y + 1) * width == y * width + width
  {
    NextRow(y, width);
    MulMonotone(y + 1, height, width);
    RowsFillGrid(width, height);
  }

  lemma NextRow(y: nat, width: nat)
    ensures (y + 1) * width == y * width + width
  {
  }

  lemma {:induction false} MulMonotone(a: nat, b: nat, c: nat)
    requires a <= b
    ensures a * c <= b * c
  {
    if c > 0 {
      MulMonotone(a, b, c - 1);
      assert a * c == a * (c - 1) + a;
      assert b * c == b * (c - 1) + b;
    }
  }

  /** After `height` rows the whole grid is covered. */
  lemma RowsFillGrid(width: nat, height: nat)
    ensures height * width == width * height
  {
  }

  /** `renderingController.clearBuffers`: both grids filled with 0 in place. */
  method ClearBuffers(pointsArray: array<int>, colorArray: array<real>)
    modifies pointsArray, colorArray
    ensures forall i :: 0 <= i < pointsArray.Length ==> pointsArray[i] == 0
    ensures forall i :: 0 <= i < colorArray.Length ==> colorArray[i] == 0.0
  {
    forall i | 0 <= i < pointsArray.Length {
      pointsArray[i] := 0;
    }
    forall i | 0 <= i < colorArray.Length {
      colorArray[i] := 0.0;
    }
  }
}

=== FILE: scratch_colour.dfy ===
/**
 * The colour bookkeeping of `generatePointsFor` as written. `addPointToArray` calls
 * `getColorAt(color, c, colormap)` and then adds its scratch vector `color`, created
 * black once per call, rather than the colour `getColorAt` returns. At an integral
 * colormap position that vector is not written, so it keeps the colour of the last
 * blended sample (black if there was none).
 *
 * The functions below run the engine of `ChaosGame` and replace each sample's
 * colour with that scratch vector, threading it from step to step and from orbit to
 * orbit. The walker, the random values used and the cells hit are the engine's; only
 * the colour differs.
 */
module ScratchColour {
  import opened Colormap
  import opened Settings
  import opened Pixels
  import opened Accumulation
  import opened ChaosGame

  /** A run together with the scratch vector `color` it leaves behind. */
  datatype ScratchRun = ScratchRun(run: Run, scratch: Color)

  /** The same cells, in the same order; the colours may differ. */
  predicate SameCells(s: seq<Sample>, t: seq<Sample>) {
    |s| == |t| && forall i :: 0 <= i < |s| ==> s[i].cell == t[i].cell
  }

  /** Every sample carries the colour `color`. */
  predicate AllColour(samples: seq<Sample>, color: Color) {
    forall i :: 0 <= i < |samples| ==> samples[i].color == color
  }

  lemma SameCellsAppend(s: seq<Sample>, t: seq<Sample>, s': seq<Sample>, t': seq<Sample>)
    requires SameCells(s, t) && SameCells(s', t')
    ensures SameCells(s + s', t + t')
  {
    forall i | 0 <= i < |s + s'| ensures (s + s')[i].cell == (t + t')[i].cell {
      if i >= |s| {
        assert (s + s')[i] == s'[i - |s|] && (t + t')[i] == t'[i - |t|];
      }
    }
  }

  lemma AllColourAppend(s: seq<Sample>, t: seq<Sample>, color: Color)
    ensures AllColour(s, color) && AllColour(t, color) ==> AllColour(s + t, color)
  {
    if AllColour(s, color) && AllColour(t, color) {
      forall i | 0 <= i < |s + t| ensures (s + t)[i].color == color {
        if i >= |s| {
          assert (s + t)[i] == t[i - |s|];
        }
      }
    }
  }

  /**
   * A plotted step as written: the engine's step, whose sample (if any) carries the
   * scratch vector as `getColorAt` leaves it. With a one-entry colormap the scratch
   * vector is never written, so the sample carries whatever it held.
   */
  function ScratchStep(f: Fractal, rand: Stream, width: nat, height: nat, w: Walker, scratch: Color): (r: ScratchRun)
    requires PlotReady(f, rand, width, height, w)
    ensures r.run.w == PlotStep(f, rand, width, height, w).w
    ensures SameCells(r.run.samples, PlotStep(f, rand, width, height, w).samples)
    ensures |f.colormap| == 1 ==> r.scratch == scratch && AllColour(r.run.samples, scratch)
  {
    var step := PlotStep(f, rand, width, height, w);
    if step.samples == [] then ScratchRun(step, scratch)
    else
      var color := ScratchAfterGetColorAt(scratch, step.w.c, f.colormap);
      assert |f.colormap| == 1 ==> AtEntry(step.w.c, |f.colormap|);
      ScratchRun(Run(step.w, [Sample(step.samples[0].cell, color)]), color)
  }

  /**
   * `n` plotted steps as written: the engine's walker and cells, in order, with the
   * scratch vector carried from step to step.
   */
  function ScratchPlot(f: Fractal, rand: Stream, width: nat, height: nat, w: Walker, n: nat, scratch: Color): (r: ScratchRun)
    requires PlotReady(f, rand, width, height, w)
    ensures r.run.w == Plot(f, rand, width, height, w, n).w
    ensures SameCells(r.run.samples, Plot(f, rand, width, height, w, n).samples)
    ensures |f.colormap| == 1 ==> r.scratch == scratch && AllColour(r.run.samples, scratch)
  {
    if n == 0 then ScratchRun(Run(w, []), scratch)
    else
      var before := ScratchPlot(f, rand, width, height, w, n - 1, scratch);
      var step := ScratchStep(f, rand, width, height, before.run.w, before.scratch);
      SameCellsAppend(before.run.samples, Plot(f, rand, width, height, w, n - 1).samples,
                      step.run.samples, PlotStep(f, rand, width, height, before.run.w).samples);
      AllColourAppend(before.run.samples, step.run.samples, scratch);
      ScratchRun(Run(step.run.w, before.run.samples + step.run.samples), step.scratch)
  }

  /** One orbit as written: seed, warm up, then the plotted steps with the scratch vector. */
  function ScratchOrbit(f: Fractal, rand: Stream, config: Config, w: Walker, scratch: Color): (r: ScratchRun)
    requires PlotReady(f, rand, config.width, config.height, w)
    ensures r.run.w == Orbit(f, rand, config, w).w
    ensures SameCells(r.run.samples, Orbit(f, rand, config, w).samples)
    ensures |f.colormap| == 1 ==> r.scratch == scratch && AllColour(r.run.samples, scratch)
  {
    var warm := WarmUp(f, rand, Seed(rand, w), config.skipped);
    ScratchPlot(f, rand, config.width, config.height, warm, config.plotted, scratch)
  }

  /**
   * The first `n` orbits as written; the scratch vector starts black and is never
   * reset. The walker and the cells are the engine's; with a one-entry colormap
   * every sample is black.
   */
  function ScratchOrbits(f: Fractal, rand: Stream, config: Config, n: nat): (r: ScratchRun)
    requires ValidFractal(f) && UnitStream(rand) && config.width > 0 && config.height > 0
    ensures r.run.w == Orbits(f, rand, config, n).w
    ensures SameCells(r.run.samples, Orbits(f, rand, config, n).samples)
    ensures |f.colormap| == 1 ==> r.scratch == Black && AllColour(r.run.samples, Black)
  {
    if n == 0 then ScratchRun(Run(Start(rand), []), Black)
    else
      var before := ScratchOrbits(f, rand, config, n - 1);
      var orbit := ScratchOrbit(f, rand, config, before.run.w, before.scratch);
      SameCellsAppend(before.run.samples, Orbits(f, rand, config, n - 1).samples,
                      orbit.run.samples, Orbit(f, rand, config, before.run.w).samples);
      AllColourAppend(before.run.samples, orbit.run.samples, Black);
      ScratchRun(Run(orbit.run.w, before.run.samples + orbit.run.samples), orbit.scratch)
  }

  /**
   * Every sample one call records as written: the cells of `Samples`, in order, so
   * they fit the grid, each with the scratch colour; with a one-entry colormap,
   * every one of them black.
   */
  function ScratchSamples(f: Fractal, rand: Stream, config: Config): (samples: seq<Sample>)
    requires ValidFractal(f) && UnitStream(rand) && config.width > 0 && config.height > 0
    ensures SameCells(samples, Samples(f, rand, config))
    ensures Fits(samples, config.width * config.height)
    ensures |f.colormap| == 1 ==> AllColour(samples, Black)
  {
    ScratchOrbits(f, rand, config, config.points).run.samples
  }

  /** Samples on the same cells hit every cell equally often. */
  lemma {:induction false} SameCellsHits(s: seq<Sample>, t: seq<Sample>, cell: nat)
    requires SameCells(s, t)
    ensures Hits(s, cell) == Hits(t, cell)
    decreases |s|
  {
    if s != [] {
      var last := |s| - 1;
      SameCellsHits(s[..last], t[..last], cell);
    }
  }

  /** Depositing samples on the same cells leaves the same counts, whatever their colours. */
  lemma SameCellsSameCounts(g: Grids, s: seq<Sample>, t: seq<Sample>)
    requires Shaped(g) && Fits(s, |g.counts|) && Fits(t, |g.counts|) && SameCells(s, t)
    ensures Deposit(g, s).counts == Deposit(g, t).counts
  {
    DepositCounts(g, s);
    DepositCounts(g, t);
    forall i | 0 <= i < |g.counts| ensures Hits(s, i) == Hits(t, i) {
      SameCellsHits(s, t, i);
    }
  }

  /**
   * As written, the hit counts of a call are exactly those of the engine: the stale
   * colour changes no count.
   */
  lemma ScratchSameCounts(g: Grids, f: Fractal, rand: Stream, config: Config)
    requires ValidFractal(f) && UnitStream(rand) && config.width > 0 && config.height > 0
    requires Shaped(g) && |g.counts| == config.width * config.height
    ensures Deposit(g, ScratchSamples(f, rand, config)).counts == Deposit(g, Samples(f, rand, config)).counts
  {
    SameCellsSameCounts(g, ScratchSamples(f, rand, config), Samples(f, rand, config));
  }

  /** Black samples add nothing to any colour sum. */
  lemma {:induction false} BlackAddsNothing(samples: seq<Sample>, cell: nat, k: nat)
    requires AllColour(samples, Black)
    ensures Added(samples, cell, k) == 0.0
    decreases |samples|
  {
    if samples != [] {
      BlackAddsNothing(samples[..|samples| - 1], cell, k);
    }
  }

  /** Black samples leave every colour sum where it was. */
  lemma BlackSumsUnchanged(g: Grids, samples: seq<Sample>)
    requires Shaped(g) && Fits(samples, |g.counts|) && AllColour(samples, Black)
    ensures Deposit(g, samples).sums == g.sums
  {
    forall j | 0 <= j < |g.sums| ensures Deposit(g, samples).sums[j] == g.sums[j] {
      DepositSumAt(g, samples, j);
      BlackAddsNothing(samples, j / 3, j % 3);
    }
  }

  /**
   * As written, a call with a one-entry colormap leaves every colour sum where it
   * was, whatever the entry, while the counts grow as the engine's do.
   */
  lemma SingleColourSumsUnchanged(g: Grids, f: Fractal, rand: Stream, config: Config, a: Color)
    requires ValidFractal(f) && UnitStream(rand) && config.width > 0 && config.height > 0
    requires f.colormap == [a]
    requires Shaped(g) && |g.counts| == config.width * config.height
    ensures Deposit(g, ScratchSamples(f, rand, config)).sums == g.sums
    ensures Deposit(g, ScratchSamples(f, rand, config)).counts == Deposit(g, Samples(f, rand, config)).counts
  {
    BlackSumsUnchanged(g, ScratchSamples(f, rand, config));
    ScratchSameCounts(g, f, rand, config);
  }

  /** Sums that are all 0 are the sums of `n` black hits on any one cell. */
  lemma ZeroSumsOnly(cells: nat, cell: nat, n: nat)
    ensures SumsOnly(Zeros(cells).sums, cell, n, Black)
  {
  }

  /**
   * The fixed-point fractal of `ChaosGame.FixedFlameHitsSeedCell`, as written: the
   * seed's cell still counts `PLOTTED_ITERS` hits and no other cell is hit, but every
   * colour sum stays 0, as if the single colour were black.
   */
  lemma FixedFlameAsWritten(f: Fractal, rand: Stream, config: Config, a: Color)
    requires ValidFractal(f) && UnitStream(rand) && FixesEveryPoint(f) && f.colormap == [a]
    requires config.width > 0 && config.height > 0 && config.points == 1
    ensures var seed := Point(rand(1) * 2.0 - 1.0, rand(2) * 2.0 - 1.0);
      InBounds(seed) &&
      var cell := Cell(seed, config.width, config.height);
      OnlyCell(Deposit(Zeros(config.width * config.height), ScratchSamples(f, rand, config)), cell, config.plotted, Black)
  {
    var n := config.width * config.height;
    var seed := Point(rand(1) * 2.0 - 1.0, rand(2) * 2.0 - 1.0);
    var cell := Cell(seed, config.width, config.height);
    var after := Deposit(Zeros(n), ScratchSamples(f, rand, config));
    FixedFlameHitsSeedCell(f, rand, config, a);
    SingleColourSumsUnchanged(Zeros(n), f, rand, config, a);
    assert after.counts == Deposit(Zeros(n), Samples(f, rand, config)).counts;
    assert after.sums == Zeros(n).sums;
    ZeroSumsOnly(n, cell, config.plotted);
  }
}

=== FILE: settings.dfy ===
/**
 * The options `generatePointsFor` reads, and the fallbacks it applies with `||`:
 * an option that is missing or 0 is replaced by its default.
 */
module Settings {

  datatype Option<T> = None | Some(value: T)

  /** The numeric fields of the options object handed to `generatePointsFor`. */
  datatype Options = Options(
    pointsToGenerate: Option<nat>,
    iterationsToSkip: Option<nat>,
    iterationsToPlot: Option<nat>,
    width: Option<nat>,
    height: Option<nat>)

  /** The counts and dimensions one call actually runs with. */
  datatype Config = Config(points: nat, skipped: nat, plotted: nat, width: nat, height: nat)

  const DefaultPoints: nat := 10000
  const DefaultSkipped: nat := 20
  const DefaultPlotted: nat := 200
  const DefaultWidth: nat := 500
  const DefaultHeight: nat := 500

  /**
   * `option || fallback` on a count: a present, non-zero value is kept; a missing
   * value and a 0 both give the fallback.
   */
  function OrElse(option: Option<nat>, fallback: nat): (n: nat)
    ensures option.Some? && option.value != 0 ==> n == option.value
    ensures option == None || option == Some(0) ==> n == fallback
    ensures fallback > 0 ==> n > 0
  {
    match option
    case Some(v) => if v != 0 then v else fallback
    case None => fallback
  }

  /** The configuration a call resolves from its options. */
  function Resolve(options: Options): (config: Config)
    ensures config.points > 0 && config.skipped > 0 && config.plotted > 0
    ensures config.width > 0 && config.height > 0
  {
    Config(
      OrElse(options.pointsToGenerate, DefaultPoints),
      OrElse(options.iterationsToSkip, DefaultSkipped),
      OrElse(options.iterationsToPlot, DefaultPlotted),
      OrElse(options.width, DefaultWidth),
      OrElse(options.height, DefaultHeight))
  }

  /** Options all set to 0 run exactly like options all left out. */
  lemma ZeroOptionsFallBack()
    ensures Resolve(Options(Some(0), Some(0), Some(0), Some(0), Some(0)))
         == Resolve(Options(None, None, None, None, None))
         == Config(10000, 20, 200, 500, 500)
  {
  }

  /** A configured `iterationsToSkip` of 0 still runs 20 warm-up steps. */
  lemma ZeroSkipRunsTwentyWarmUps(options: Options)
    requires options.iterationsToSkip == Some(0)
    ensures Resolve(options).skipped == 20
  {
  }
}
